=== FILE: README.md ===
# GPXUtils core in Dafny

A model of the pure logic in `gpx_utils.py`, a Python 2 script that works with
GPS tracks (GPX files) and SRTM elevation tiles:

- **Tile naming and grid addressing** (`addressing.dfy`). `SRTM_File` turns a
  coordinate into the name of its 1°×1° tile, for example `N34E071`.
  `GetRowCol` turns the fractional degrees into a row and a column of the
  1201×1201 sample grid. Index -1, which numpy wraps to 1200, is reproduced.
- **Tile decoding** (`tile.dfy`). This is the pure step of `LoadTile`. The
  2·1201·1201 bytes are read as big-endian signed 16-bit samples and reshaped
  to 1201×1201. The rows are then flipped, so that row 0 is the southern edge.
  Decoding is proved to be inverted by an encoder.
- **Elevation lookup** (`elevation.dfy`). `GetElev` loads the tile afresh and
  reads one sample. `GetListElev` is a fold over the coordinates. It threads a
  dict of decoded tiles keyed by tile name and a log of the tiles loaded, and
  maps the void sample -32768 to `None`.
- **Route-point extraction** (`route.dfy`). `NodeType` and `ParseRoute`
  flatten a GPX element tree into its track and route points, in document
  order.
- **Route metrics and decimation** (`metrics.dfy`, `decimate.dfy`):
  - the total ascent of `GetAscent`;
  - the structure of `Dist` and `RouteDistance`;
  - the point selection and output name of `CleanGPXFile`.

`results.dfy` holds `Option` and `Result`. `pynum.dfy` holds the Python 2 number
conversions the code relies on: `int()`, `round`, `str` and zero-padded
formatting of whole numbers. Coordinates and elevations are exact `real`s.

Reading a tile archive is a parameter. A `ByteSource` maps a tile name to the
bytes of its `.hgt` entry, or to `None` when it cannot be read. The lookups see
tiles through a `Loader`, which is a function from tile name to decoded grid or
error. `FromSource` builds the real one from a byte source. The trigonometry
and square root of the distance formulas are also parameters, in an `Earth`
value.

Behaviour of the code that the model keeps as it is:

- The digits of a tile name are the magnitude of the floor. The tile of
  (-0.5, -0.5) is therefore `S01W001` (`Addressing.BelowZeroNamesFloor`).
- Grid indices are not clamped. At a whole degree the index is -1, which numpy
  wraps to 1200 (see Findings).
- `GetListElev` raises on the first tile that fails to load, and the model
  returns that error (`Elevation.GetListElev`). No per-point `None` stands in
  for a missing tile.
- No coordinate is validated. Every real latitude and longitude is accepted.
- `GetElev` returns the raw sample, the void value -32768 included
  (`Elevation.GetElev`). Only `GetListElev` maps it to `None`
  (`Elevation.ElevOf`).

## Model

| member | source | states |
|---|---|---|
| PyNum.Trunc | gpx_utils.py:155 | `int(x)` truncates toward zero: the result is the whole number at or below a non-negative `x` and at or above a negative one, less than one away |
| PyNum.Round | gpx_utils.py:157 | `round` gives a whole number at most 1/2 away, and exact halves go away from zero |
| PyNum.FormatPadded | gpx_utils.py:141 | the `{0:02n}`/`{0:03n}` text of a whole number is all digits, at least as wide as requested, and denotes the number |
| PyNum.FormatPaddedCanonical | gpx_utils.py:141 | the padded text is exactly as long as the larger of the width and the digit count, and a text longer than the width has no leading zero: with the value clause, the text is unique |
| PyNum.Decimal | gpx_utils.py:217 | `str(n)` is a non-empty string of digits with no leading zero for n ≥ 10 |
| PyNum.DecimalRoundTrip | gpx_utils.py:217 | `str(n)` read back as decimal digits gives `n` |
| Addressing.FloorMagnitude | gpx_utils.py:141 | `abs(math.floor(x))` is the whole number m with m ≤ x < m + 1 for x ≥ 0, and with −m ≤ x < −m + 1 for x < 0 |
| Addressing.SrtmFile | gpx_utils.py:139-141 | the name starts with 'N' exactly when lat ≥ 0 (else 'S') and has at least seven characters |
| Addressing.SrtmFileRoundTrip | gpx_utils.py:141 | the hemisphere letters and digits of a name read back as floor(lat) and floor(lon) |
| Addressing.SameTileIffSameFloors | gpx_utils.py:139-141 | two coordinates share a tile name exactly when their latitude floors and longitude floors agree |
| Addressing.NameShape | gpx_utils.py:141 | for abs(lat) ≤ 90 and abs(lon) ≤ 180 the name has length 7 and its 4th character is 'E' exactly when lon ≥ 0 |
| Addressing.BelowZeroNamesFloor | gpx_utils.py:141 | the tile of (-0.5, -0.5) is `S01W001`: the digits are the magnitude of the floor |
| Addressing.Fraction | gpx_utils.py:155-156 | after the `x<0` adjustment the fraction is x − floor(x), in [0, 1) |
| Addressing.AxisIndex | gpx_utils.py:157 | the index is the nearest whole number to 1201·f − 1, a half step going up as Python 2's `round` does on these values, and lies in [-1, 1200]. It is -1 exactly when f ≤ 1/2402, so at every whole degree |
| Addressing.GetRowCol | gpx_utils.py:153-163 | row and column lie in [-1, 1200], and a whole-degree latitude (longitude) gives row (column) -1 |
| Addressing.NumpyIndex | gpx_utils.py:171 | numpy indexing of an axis of length n: a negative index i reads element n + i, and the result is a valid position |
| Addressing.WholeDegreeReadsFarEdge | gpx_utils.py:155-157 | at (34.0, 71.5) the row is -1, which reads row 1200 of tile N34E071, the edge at latitude 35, where the corrected index is 0 |
| Addressing.IntendedIndex | gpx_utils.py:3-8 | the corrected index round(f·1200) lies in [0, 1200], is the nearest whole number to f·1200 with a half step going up, and is 0 at a whole degree |
| Addressing.GetRowColIntended | gpx_utils.py:3-8 | corrected addressing: both indices in [0, 1200] and nearest to f·1200 (half steps up), (0, 0) at the south-west corner |
| Addressing.AsWrittenVersusIntended | gpx_utils.py:157 | for every coordinate the index as written is the corrected one or one below it. At the wrap it is -1, one below the corrected 0 |
| Tile.Int16BE | gpx_utils.py:151 | a sample is a signed 16-bit value whose two's-complement bit pattern is hi·256 + lo (big-endian) |
| Tile.FlipRows | gpx_utils.py:151 | `flipud`: row r of the result is row n−1−r of the input |
| Tile.FlipInvolution | gpx_utils.py:151 | flipping the rows twice gives back the grid |
| Tile.FileGrid | gpx_utils.py:151 | `reshape(1201, 1201)` of a tile buffer gives 1201 rows of 1201 int16 samples |
| Tile.FileGridOrder | gpx_utils.py:151 | the reshape is in C order: sample k of the file lands at row k div 1201, column k mod 1201 |
| Tile.Decode | gpx_utils.py:151 | exactly the buffers of 2·1201·1201 bytes decode, to a 1201×1201 grid of int16 samples whose row r is file row 1200−r. An odd length and any other length fail with distinct errors |
| Tile.DecodeEncode | gpx_utils.py:151 | every 1201×1201 int16 grid survives encoding and decoding unchanged |
| Tile.EncodeDecode | gpx_utils.py:151 | every decodable buffer is reproduced exactly by encoding its grid |
| Elevation.LoadTile | gpx_utils.py:143-151 | a missing archive gives `TileNotFound`. A present one decodes exactly when it has the tile length, and then yields a well-formed tile. Otherwise it fails with `TileCorrupt` carrying the decoder's reason (odd length or wrong shape), distinct from a missing archive |
| Elevation.LoadedTileIsFile | gpx_utils.py:151 | a loaded tile re-encodes to the bytes the archive supplied |
| Elevation.FromSource | gpx_utils.py:143-151 | the loader built from a byte source yields only well-formed tiles and agrees with `LoadTile` on every name |
| Elevation.GetElev | gpx_utils.py:165-171 | succeeds exactly when the coordinate's tile loads, passes the load error through, and returns an int16 sample, void included |
| Elevation.Sample | gpx_utils.py:169-171 | `nTile[nrow][ncol]` with the as-written indices, negative ones wrapped, is an int16 sample |
| Elevation.GetElevReadsFile | gpx_utils.py:165-171 | with the real loader the result is the sample stored in the tile file at file row 1200 − row and column col, after numpy's wrap |
| Elevation.GetElevIntended | gpx_utils.py:3-8 | the corrected lookup fails exactly when the tile fails to load, passes the load error through, and returns an int16 sample |
| Elevation.GetElevIntendedReadsFile | gpx_utils.py:3-8 | with the real loader the corrected lookup returns the sample at file row 1200 − round(f·1200), the row nearest the latitude |
| Elevation.WholeDegreeFileRows | gpx_utils.py:151-171 | at a whole-degree latitude the code reads file row 0, the northern edge one degree away. The corrected lookup reads file row 1200, the southern edge on that latitude |
| Elevation.VoidToNone | gpx_utils.py:192 | `None` exactly for VOID_ELE = -32768, the sample itself otherwise |
| Elevation.ElevOf | gpx_utils.py:189-192 | the uncached value of one coordinate: fails as its tile does, is `None` exactly when `GetElev` returns the void sample, and is `GetElev`'s sample otherwise |
| Elevation.Step | gpx_utils.py:181-192 | one iteration uses the cached tile or loads and caches it, keeping the cache sound. It fails exactly when the tile fails to load, adds the tile's name to the keys, appends the uncached value, and loads nothing on a cache hit |
| Elevation.Run | gpx_utils.py:179-193 | the loop keeps the cache sound and appends one value per coordinate |
| Elevation.RunOutcome | gpx_utils.py:179-187 | the loop fails exactly when some coordinate's tile fails to load, with the error of the first such coordinate |
| Elevation.RunCache | gpx_utils.py:181-187 | on success the cache keys grow by exactly the tile names of the coordinates |
| Elevation.RunValues | gpx_utils.py:189-193 | on success the loop appends the uncached reference values, in order |
| Elevation.ExpectedAt | gpx_utils.py:189-193 | entry i of the reference list is the uncached lookup of coordinate i |
| Elevation.GetListElev | gpx_utils.py:173-195 | fails exactly when some tile fails to load, with the first failure in input order. Otherwise it returns one entry per coordinate |
| Elevation.GetListElevValues | gpx_utils.py:175-193 | entry i is what `GetElev` gives for coordinate i, with the void sample as `None`: the cache changes no value |
| Elevation.GetListElevCache | gpx_utils.py:181-187 | at the end the cache keys are exactly the tile names of the inputs, and each cached grid is the loader's result for its key |
| Elevation.GetListElevLoadsOnce | gpx_utils.py:183-187 | every logged name is the tile of some coordinate, the log has no repetition, and it has as many entries as there are distinct tile names: each tile is loaded exactly once |
| Route.Find | gpx_utils.py:60 | `str.find`: the first position of the character, or -1 exactly when it is absent |
| Route.Upper | gpx_utils.py:61 | `.upper()` keeps the length and maps each character to its upper-case form |
| Route.NodeType | gpx_utils.py:58-61 | a tag without '}' is upper-cased whole, and the result is never longer than the tag |
| Route.NodeTypeAfterNamespace | gpx_utils.py:58-61 | everything up to the first '}' is dropped and the rest upper-cased, further '}' included |
| Route.FirstEle | gpx_utils.py:83-86 | no elevation exactly when no child is of type ELE, and the only failure is an unusable ELE text |
| Route.FirstEleAt | gpx_utils.py:83-86 | the elevation is the text of the first ELE child alone, and fails when that text is unusable, whatever later ELE children hold |
| Route.ParsePoint | gpx_utils.py:78-87 | a missing `lat` is reported before a missing `lon`. A parsed point carries both attributes and the first ELE child's elevation |
| Route.ParseRoute | gpx_utils.py:63-90 | a container gives a list (which list: `Route.ContainerSpliced`), a TRKPT/RTEPT gives exactly `ParsePoint`'s outcome, any other tag gives nothing |
| Route.ContainerSpliced | gpx_utils.py:67-76 | a nested container contributes exactly what its own children would in its place: `pts += x` splices the child's list, so a gpx > trk > trkseg > trkpt tree yields its points in document order, and errors stay in document order |
| Route.ParseChildren | gpx_utils.py:69-76 | the `for child in node` loop gives no points for no children, stops with the error of a failing first child, and gives a single child's contribution |
| Route.ParseChildrenAppend | gpx_utils.py:69-76 | the children `a + b` give the points of `a` followed by those of `b`, and the first error in document order wins |
| Route.OtherTagIgnored | gpx_utils.py:67-90 | a child of any other kind contributes nothing, the points inside it included |
| Route.NamespaceIgnored | gpx_utils.py:58-90 | putting every tag of a tree in one namespace leaves the points, or the error, unchanged |
| Route.RoutePoints | gpx_utils.py:94-96 | a root that is not a container fails, and a container yields the points of its children |
| Metrics.StepAscent | gpx_utils.py:100-101 | a pair contributes max(e2 − e1, 0) when both have an elevation and 0 otherwise |
| Metrics.Ascent | gpx_utils.py:98-102 | the ascent is ≥ 0, and 0 for fewer than two points |
| Metrics.AscentSplit | gpx_utils.py:98-102 | splitting a route at a point splits its ascent into the ascents of the two halves |
| Metrics.AscentAtLeastNetGain | gpx_utils.py:98-102 | when every point has an elevation, the ascent is at least the last elevation minus the first |
| Metrics.AscentOf | gpx_utils.py:98-102 | the `zip` loop computes the pairwise sum of climbs |
| Metrics.GetAscent | gpx_utils.py:92-102 | fails exactly when parsing does, and otherwise gives the non-negative ascent of the parsed route |
| Metrics.Dist | gpx_utils.py:34-40 | a point is at distance sqrt(0) from itself |
| Metrics.DistSymmetric | gpx_utils.py:34-40 | `Dist` does not depend on the direction of travel |
| Metrics.DistSelf | gpx_utils.py:34-40 | a point is at distance sqrt(0) from itself, which is 0 for a square root with sqrt(0) = 0 such as `math.sqrt` |
| Metrics.RouteDistance | gpx_utils.py:48-56 | the length of a route of at most one point is 0 |
| Metrics.RouteLength | gpx_utils.py:42-56 | fails exactly when parsing does, and is 0 for at most one point |
| Metrics.RouteDistanceReverse | gpx_utils.py:48-56 | a route walked backwards has the same length |
| Decimate.Filt | gpx_utils.py:215 | the factor is at least 1, and 1 below 2000 points |
| Decimate.KeptCountBound | gpx_utils.py:215 | keeping every `filt`-th of n points leaves at most MAX_GETAMAP_POINTS = 2000 |
| Decimate.KeepStep | gpx_utils.py:222-223 | one iteration of the `enumerate` loop writes point i exactly when i % filt == 0 and keeps the loop's description |
| Decimate.KeepEvery | gpx_utils.py:222-223 | ceil(n/filt) points are written. Point k is point k·filt of the route, and every point at a multiple of filt is written |
| Decimate.FirstPointKept | gpx_utils.py:222-223 | the first point of a non-empty route is written first |
| Decimate.Stem | gpx_utils.py:217 | `sfile[:-4]` drops the last four characters, or gives "" for a shorter name |
| Decimate.OutputName | gpx_utils.py:217 | the name is the stem, '_', digits that read back as filt and have no leading zero, then ".gpx" |
| Decimate.OutputNamesDiffer | gpx_utils.py:217 | distinct factors give distinct output names |
| Decimate.CleanGpxFile | gpx_utils.py:209-223 | fails exactly when parsing does. Otherwise it names the file after filt and writes at most 2000 points: every filt-th point, starting with the first |

## Left out

- Reading the tile archive: opening `<name>.hgt.zip` under `SRTM_FILE_LOC` and reading its first entry (gpx_utils.py:145-149). This is a `ByteSource` parameter.
- Host byte order in `np.fromstring(...).byteswap()` (gpx_utils.py:151). The model decodes big-endian, as the format intends.
- XML parsing with `xml.etree` and `float(...)` of attribute and element text (gpx_utils.py:44, 81, 85). The tree arrives parsed, with numbers as reals. Non-numeric text is `None` and fails like missing text. An attribute that is present but not a number cannot be represented.
- Writing the thinned file (gpx_utils.py:218-231), including the `%.8f`/`%.2f` formatting. Only the file name and the points written are modelled.
- `ChartProfile` and `ElevDemo` (gpx_utils.py:104-136, 197-207): matplotlib plotting.
- Floating point. All arithmetic is exact. A float `x*1201-1` landing next to a .5 boundary could round differently in Python.
- `DeltaLat`, `DeltaLong` and `math.sqrt` (gpx_utils.py:24-32, 40) are parameters. Only the structure of `Dist` and `RouteDistance` is proved about them.
- numpy specifics: `npCoord` is a sequence of coordinate pairs. The float indices `round` returns in Python 2 are whole numbers here. Samples are `int`s, not numpy int16 scalars.
- Addressing.SrtmFile: does not reproduce the exponent notation Python's `n` format uses for magnitudes of a million degrees and more; such magnitudes are written out in full.
- Route.Upper: upper-cases ASCII letters only; other characters are left alone.
- Elevation.GetListElev: the load log is an ordinary field of the result, because a returned datatype cannot carry a ghost field.

## Findings

| source | as written | input that shows it | evidently intended | confidence | as-written member | corrected member |
|---|---|---|---|---|---|---|
| gpx_utils.py:157 | `nrow=round(x*LINES_PER_CELL-1)` (and `ncol` at line 161) | lat = 34.0, lon = 71.5: row -1, which numpy reads as row 1200, the edge at latitude 35 of tile N34E071 | `round(x*(LINES_PER_CELL-1))`: row 0 at latitude 34, as the header at lines 3-8 documents | high (not executed) | Addressing.AxisIndex, Addressing.WholeDegreeReadsFarEdge, Elevation.WholeDegreeFileRows | Addressing.IntendedIndex, Addressing.GetRowColIntended, Elevation.GetElevIntended |

`Elevation.GetElevIntended` is the single-point lookup with the corrected
index. `GetElev` and `GetListElev` keep the index as written, so that they
describe what the code returns. `Addressing.AsWrittenVersusIntended` bounds the
gap for every coordinate: the index as written is the corrected one or one
below it, and at the wrap it is -1 against the corrected 0.

=== FILE: addressing.dfy ===
/** Tile naming and in-tile grid addressing (`SRTM_File` and `GetRowCol` in
    gpx_utils.py). A tile covers one degree of latitude by one degree of
    longitude and is named after its south-west corner. */
module Addressing {
  import opened Results
  import opened PyNum

  /** Samples per tile edge: tiles are 1201 x 1201 samples, three arc
      seconds apart, sharing their edge rows and columns with neighbours. */
  const LINES_PER_CELL: int := 1201

  /** `abs(math.floor(x))`: the whole number `m` with `m <= x < m + 1` for
      a non-negative `x`, and with `-m <= x < -m + 1` for a negative one. */
  function FloorMagnitude(x: real): (m: nat)
    ensures x >= 0.0 ==> m as real <= x < m as real + 1.0
    ensures x < 0.0 ==> -(m as real) <= x < -(m as real) + 1.0
  {
    if x.Floor >= 0 then x.Floor else -x.Floor
  }

  /** `SRTM_File(lat, lon)`: hemisphere letter, floor magnitude of the
      latitude padded to two digits, hemisphere letter, floor magnitude of
      the longitude padded to three digits. Magnitudes of a million degrees
      and more, which Python prints in exponent notation, are written out in
      full here. */
  function SrtmFile(lat: real, lon: real): (name: string)
    ensures |name| >= 7
    ensures name[0] == 'N' <==> lat >= 0.0
    ensures name[0] == 'N' || name[0] == 'S'
  {
    var h1 := if lat >= 0.0 then 'N' else 'S';
    var h2 := if lon >= 0.0 then 'E' else 'W';
    var latDigits := FormatPadded(FloorMagnitude(lat), 2);
    var lonDigits := FormatPadded(FloorMagnitude(lon), 3);
    [h1] + latDigits + [h2] + lonDigits
  }

  /** A tile name reads back as the floors of the coordinate it was made
      from: the hemisphere letters carry the signs and the digits the
      magnitudes. */
  lemma SrtmFileRoundTrip(lat: real, lon: real)
    ensures ParseTileName(SrtmFile(lat, lon)) == Some((lat.Floor, lon.Floor))
  {
    var h1 := if lat >= 0.0 then 'N' else 'S';
    var h2 := if lon >= 0.0 then 'E' else 'W';
    var latDigits := FormatPadded(FloorMagnitude(lat), 2);
    var lonDigits := FormatPadded(FloorMagnitude(lon), 3);
    var name := [h1] + latDigits + [h2] + lonDigits;
    assert SrtmFile(lat, lon) == name;
    SignedMagnitude(lat);
    SignedMagnitude(lon);
    ParseNameAs(h1, latDigits, h2, lonDigits, lat.Floor, lon.Floor);
  }

  /** `ParseNameOf` with the two signed values named by the caller, so that
      the round trip compares them without unfolding the digit strings. */
  lemma ParseNameAs(h1: char, d1: string, h2: char, d2: string, a: int, b: int)
    requires h1 == 'N' || h1 == 'S'
    requires IsLonLetter(h2)
    requires AllDigits(d1) && AllDigits(d2) && |d1| > 0 && |d2| > 0
    requires a == if h1 == 'N' then DigitsValue(d1) as int else -(DigitsValue(d1) as int)
    requires b == if h2 == 'E' then DigitsValue(d2) as int else -(DigitsValue(d2) as int)
    ensures ParseTileName([h1] + d1 + [h2] + d2) == Some((a, b))
  {
    ParseNameOf(h1, d1, h2, d2);
  }

  /** The hemisphere letter and `abs(floor(x))` together recover `floor(x)`. */
  lemma SignedMagnitude(x: real)
    ensures x >= 0.0 ==> FloorMagnitude(x) == x.Floor
    ensures x < 0.0 ==> -(FloorMagnitude(x) as int) == x.Floor
  {
  }

  predicate IsLonLetter(c: char) {
    c == 'E' || c == 'W'
  }

  /** The first position at or after `i` holding 'E' or 'W', or `|s|`. */
  function FindLonLetter(s: string, i: nat): (k: nat)
    requires i <= |s|
    ensures i <= k <= |s|
    ensures k < |s| ==> IsLonLetter(s[k])
    ensures forall j :: i <= j < k ==> !IsLonLetter(s[j])
    decreases |s| - i
  {
    if i == |s| || IsLonLetter(s[i]) then i else FindLonLetter(s, i + 1)
  }

  /** Reads a tile name back into the floors of latitude and longitude it
      stands for; `None` for strings that are not tile names. */
  function ParseTileName(s: string): Option<(int, int)> {
    if |s| < 1 || (s[0] != 'N' && s[0] != 'S') then None
    else
      var k := FindLonLetter(s, 1);
      var latDigits := s[1..k];
      if k == |s| || !AllDigits(latDigits) || |latDigits| == 0 then None
      else
        var lonDigits := s[k + 1..];
        if !AllDigits(lonDigits) || |lonDigits| == 0 then None
        else
          var latMag: int := DigitsValue(latDigits);
          var lonMag: int := DigitsValue(lonDigits);
          Some((if s[0] == 'N' then latMag else -latMag,
                if s[k] == 'E' then lonMag else -lonMag))
  }

  lemma ParseNameOf(h1: char, d1: string, h2: char, d2: string)
    requires h1 == 'N' || h1 == 'S'
    requires IsLonLetter(h2)
    requires AllDigits(d1) && AllDigits(d2) && |d1| > 0 && |d2| > 0
    ensures ParseTileName([h1] + d1 + [h2] + d2) ==
      Some((if h1 == 'N' then DigitsValue(d1) as int else -(DigitsValue(d1) as int),
            if h2 == 'E' then DigitsValue(d2) as int else -(DigitsValue(d2) as int)))
  {
    LayoutOfName(h1, d1, h2, d2);
    ParseSplit([h1] + d1 + [h2] + d2, 1 + |d1|, h1, d1, h2, d2);
  }

  lemma LayoutOfName(h1: char, d1: string, h2: char, d2: string)
    requires h1 == 'N' || h1 == 'S'
    requires IsLonLetter(h2)
    requires AllDigits(d1)
    ensures var s := [h1] + d1 + [h2] + d2;
      && |s| == |d1| + 2 + |d2|
      && s[0] == h1 && s[1 + |d1|] == h2
      && s[1..1 + |d1|] == d1 && s[2 + |d1|..] == d2
      && FindLonLetter(s, 1) == 1 + |d1|
  {
    var s := [h1] + d1 + [h2] + d2;
    var k := 1 + |d1|;
    assert s[1..k] == d1;
    assert s[k + 1..] == d2;
    forall j | 1 <= j < k
      ensures !IsLonLetter(s[j])
    {
      assert s[j] == s[1..k][j - 1];
    }
  }

  lemma ParseSplit(s: string, k: nat, h1: char, d1: string, h2: char, d2: string)
    requires 1 <= k < |s|
    requires s[0] == h1 && (h1 == 'N' || h1 == 'S')
    requires s[k] == h2
    requires FindLonLetter(s, 1) == k
    requires s[1..k] == d1 && s[k + 1..] == d2
    requires AllDigits(d1) && AllDigits(d2) && |d1| > 0 && |d2| > 0
    ensures ParseTileName(s) ==
      Some((if h1 == 'N' then DigitsValue(d1) as int else -(DigitsValue(d1) as int),
            if h2 == 'E' then DigitsValue(d2) as int else -(DigitsValue(d2) as int)))
  {
  }

  /** Two coordinates name the same tile exactly when their latitudes and
      their longitudes have the same floors. */
  lemma SameTileIffSameFloors(lat1: real, lon1: real, lat2: real, lon2: real)
    ensures SrtmFile(lat1, lon1) == SrtmFile(lat2, lon2)
            <==> lat1.Floor == lat2.Floor && lon1.Floor == lon2.Floor
  {
    SrtmFileRoundTrip(lat1, lon1);
    SrtmFileRoundTrip(lat2, lon2);
    if lat1.Floor == lat2.Floor && lon1.Floor == lon2.Floor {
      assert (lat1 >= 0.0) == (lat2 >= 0.0);
      assert (lon1 >= 0.0) == (lon2 >= 0.0);
    }
  }

  /** Just south and west of the origin the magnitude is that of the floor,
      so the tile is the one whose south-west corner is at -1, -1. */
  lemma BelowZeroNamesFloor()
    ensures SrtmFile(-0.5, -0.5) == "S01W001"
  {
    assert (-0.5).Floor == -1;
    assert Decimal(1) == "1";
  }

  /** For real coordinates the name always has seven characters, and its
      fourth character is 'E' exactly for eastern longitudes. */
  lemma NameShape(lat: real, lon: real)
    requires -90.0 <= lat <= 90.0 && -180.0 <= lon <= 180.0
    ensures |SrtmFile(lat, lon)| == 7
    ensures SrtmFile(lat, lon)[3] == 'E' <==> lon >= 0.0
  {
    DecimalLength(FloorMagnitude(lat));
    DecimalLength(FloorMagnitude(lon));
  }

  /** `x - int(x)`, plus one when negative: the position of `x` within its
      one-degree tile. */
  function Fraction(x: real): (f: real)
    ensures 0.0 <= f < 1.0
    ensures f == x - x.Floor as real
  {
    var t := x - Trunc(x) as real;
    if t < 0.0 then 1.0 + t else t
  }

  /** One axis of `GetRowCol`: `round(x*LINES_PER_CELL-1)` on the fraction.
      The result is the nearest whole number to `1201*f - 1` (a half step
      going up), lies in [-1, 1200], and is -1 exactly when the fraction is
      at most 1/2402, which includes every whole degree. */
  function AxisIndex(x: real): (i: int)
    ensures -1 <= i <= LINES_PER_CELL - 1
    ensures i == -1 <==> Fraction(x) <= 1.0 / 2402.0
    ensures i == -1 || (i as real - (Fraction(x) * 1201.0 - 1.0) <= 0.5
                        && (Fraction(x) * 1201.0 - 1.0) - i as real < 0.5)
  {
    Round(Fraction(x) * LINES_PER_CELL as real - 1.0)
  }

  /** `GetRowCol(lat, lon)`. */
  function GetRowCol(lat: real, lon: real): (rc: (int, int))
    ensures -1 <= rc.0 <= LINES_PER_CELL - 1 && -1 <= rc.1 <= LINES_PER_CELL - 1
    ensures lat == lat.Floor as real ==> rc.0 == -1
    ensures lon == lon.Floor as real ==> rc.1 == -1
  {
    (AxisIndex(lat), AxisIndex(lon))
  }

  /** numpy indexing of an axis of length `n`: a negative index counts from
      the end. */
  function NumpyIndex(i: int, n: nat): (k: nat)
    requires -(n as int) <= i < n
    ensures k < n
    ensures i >= 0 ==> k == i
    ensures i < 0 ==> k == n + i
  {
    if i < 0 then n + i else i
  }

  /** As written, a coordinate on a whole degree of latitude reads row 1200
      of its tile, the northern edge one degree away, where the header of
      gpx_utils.py places it at row 0. */
  lemma WholeDegreeReadsFarEdge()
    ensures SrtmFile(34.0, 71.5) == "N34E071"
    ensures GetRowCol(34.0, 71.5).0 == -1
    ensures NumpyIndex(GetRowCol(34.0, 71.5).0, LINES_PER_CELL) == 1200
    ensures IntendedIndex(34.0) == 0
  {
    ExampleTileName(34.0, 71.5);
  }

  lemma ExampleTileName(lat: real, lon: real)
    requires lat == 34.0 && lon == 71.5
    ensures SrtmFile(lat, lon) == "N34E071"
  {
    var latMag := FloorMagnitude(lat);
    var lonMag := FloorMagnitude(lon);
    assert latMag == 34 && lonMag == 71;
    var a := FormatPadded(latMag, 2);
    var b := FormatPadded(lonMag, 3);
    assert SrtmFile(lat, lon) == ['N'] + a + ['E'] + b;
    TwoDigits(latMag, 2);
    TwoDigits(lonMag, 3);
    Spelled(a, b);
  }

  /** The concatenation of the example's four parts. */
  lemma Spelled(a: string, b: string)
    requires |a| == 2 && a[0] == DigitChar(3) && a[1] == DigitChar(4)
    requires |b| == 3 && b[0] == '0' && b[1] == DigitChar(7) && b[2] == DigitChar(1)
    ensures ['N'] + a + ['E'] + b == "N34E071"
  {
  }

  /** The padded text of a two-digit number: its two digits after
      `width - 2` zeros. */
  lemma TwoDigits(n: nat, width: nat)
    requires 10 <= n < 100 && 2 <= width <= 3
    ensures var s := FormatPadded(n, width);
      && |s| == width
      && (forall i :: 0 <= i < width - 2 ==> s[i] == '0')
      && s[width - 2] == DigitChar(n / 10) && s[width - 1] == DigitChar(n % 10)
  {
    var d := Decimal(n);
    assert d == Decimal(n / 10) + [DigitChar(n % 10)];
    assert d == [DigitChar(n / 10), DigitChar(n % 10)];
  }

  /** The index the header of gpx_utils.py describes: the nearest of the
      1201 samples, `round(f * 1200)` with a half step going up, and 0 on
      the tile's southern or western edge. */
  function IntendedIndex(x: real): (i: int)
    ensures 0 <= i <= LINES_PER_CELL - 1
    ensures i as real - Fraction(x) * 1200.0 <= 0.5
    ensures Fraction(x) * 1200.0 - i as real < 0.5
    ensures x == x.Floor as real ==> i == 0
  {
    Round(Fraction(x) * (LINES_PER_CELL - 1) as real)
  }

  /** `GetRowCol` as the header of gpx_utils.py describes it: every index in
      [0, 1200], and (0, 0) at the south-west corner of the tile. */
  function GetRowColIntended(lat: real, lon: real): (rc: (int, int))
    ensures 0 <= rc.0 <= LINES_PER_CELL - 1 && 0 <= rc.1 <= LINES_PER_CELL - 1
    ensures lat == lat.Floor as real ==> rc.0 == 0
    ensures lon == lon.Floor as real ==> rc.1 == 0
    ensures rc.0 as real - Fraction(lat) * 1200.0 <= 0.5 && Fraction(lat) * 1200.0 - rc.0 as real < 0.5
    ensures rc.1 as real - Fraction(lon) * 1200.0 <= 0.5 && Fraction(lon) * 1200.0 - rc.1 as real < 0.5
  {
    (IntendedIndex(lat), IntendedIndex(lon))
  }

  /** The index as written is the intended nearest sample or the one just
      below it; at the wrap it is -1, one below the intended 0. */
  lemma AsWrittenVersusIntended(x: real)
    ensures IntendedIndex(x) - AxisIndex(x) == 0 || IntendedIndex(x) - AxisIndex(x) == 1
  {
    var f := Fraction(x);
    var v1 := f * 1201.0 - 1.0;
    var v2 := f * 1200.0;
    RoundNonNegative(v2);
    if AxisIndex(x) != -1 {
      RoundNonNegative(v1);
      assert v2 - v1 == 1.0 - f;
      assert f > 0.0;
    }
  }
}

=== FILE: decimate.dfy ===
/** The decimation in `CleanGPXFile` (gpx_utils.py:209-231): a route is
    thinned to at most `MAX_GETAMAP_POINTS` points by keeping every
    `filt`-th point, and written to a file whose name records `filt`. Only
    the file name and the points written are modelled. */
module Decimate {
  import opened Results
  import opened PyNum
  import opened Route

  /** The most points the thinned route may have. */
  const MAX_GETAMAP_POINTS: nat := 2000

  /** `1 + len(pts)/MAX_GETAMAP_POINTS`, with Python 2 integer division. */
  function Filt(n: nat): (f: nat)
    ensures f >= 1
    ensures n < MAX_GETAMAP_POINTS ==> f == 1
  {
    1 + n / MAX_GETAMAP_POINTS
  }

  /** How many of the indices `0 .. n-1` are multiples of `f`: `ceil(n/f)`. */
  function KeptCount(n: nat, f: nat): nat
    requires f >= 1
  {
    (n + f - 1) / f
  }

  /** The thinned route never exceeds the limit. */
  lemma KeptCountBound(n: nat)
    ensures KeptCount(n, Filt(n)) <= MAX_GETAMAP_POINTS
  {
    var f := Filt(n);
    assert n < MAX_GETAMAP_POINTS * f;
    DivBelow(n + f - 1, f, MAX_GETAMAP_POINTS);
  }

  /** If `x < f*(m+1)` then `x / f <= m`. */
  lemma DivBelow(x: nat, f: nat, m: nat)
    requires f >= 1
    requires x < f * (m + 1)
    ensures x / f <= m
  {
    var d := x / f;
    assert f * d <= x;
    if d > m {
      MulMono(f, m + 1, d);
      assert false;
    }
  }

  lemma MulMono(f: nat, a: nat, b: nat)
    requires a <= b
    ensures f * a <= f * b
  {
  }

  /** Passing index `i` adds one to the count exactly when `i` is a multiple
      of `f`, and then the new point is number `i / f`. */
  lemma KeptCountStep(i: nat, f: nat)
    requires f >= 1
    ensures i % f == 0 ==> KeptCount(i + 1, f) == KeptCount(i, f) + 1 && KeptCount(i, f) == i / f
    ensures i % f != 0 ==> KeptCount(i + 1, f) == KeptCount(i, f)
  {
    var q := i / f;
    var r := i % f;
    assert i == q * f + r;
    if r == 0 {
      assert i + f - 1 == q * f + (f - 1);
      DivOf(q, f, f - 1);
      assert i + f == (q + 1) * f;
      DivOf(q + 1, f, 0);
    } else {
      assert i + f - 1 == (q + 1) * f + (r - 1);
      DivOf(q + 1, f, r - 1);
      assert i + f == (q + 1) * f + r;
      DivOf(q + 1, f, r);
    }
  }

  /** Division undoes multiplication, whatever remainder is added. */
  lemma DivOf(q: nat, f: nat, r: nat)
    requires f >= 1 && r < f
    ensures (q * f + r) / f == q
  {
    var x := q * f + r;
    var d := x / f;
    var m := x % f;
    assert x == f * d + m && 0 <= m < f;
    if d < q {
      MulMono(f, d + 1, q);
      assert false;
    }
    if d > q {
      MulMono(f, q + 1, d);
      assert false;
    }
  }

  /** `kept` is what the loop has written after looking at the first `i`
      points: `ceil(i / filt)` points, point `k` being point `k * filt` of the
      route, and every point below `i` at a multiple of `filt` among them. */
  predicate KeptUpTo(pts: seq<Point>, filt: nat, i: nat, kept: seq<Point>)
    requires filt >= 1 && i <= |pts|
  {
    && |kept| == KeptCount(i, filt)
    && (forall k :: 0 <= k < |kept| ==> k * filt < i && kept[k] == pts[k * filt])
    && (forall j :: 0 <= j < i && j % filt == 0 ==> j / filt < |kept| && kept[j / filt] == pts[j])
  }

  /** One iteration of the loop keeps `KeptUpTo`. */
  lemma KeepStep(pts: seq<Point>, filt: nat, i: nat, kept: seq<Point>)
    requires filt >= 1 && i < |pts|
    requires KeptUpTo(pts, filt, i, kept)
    ensures KeptUpTo(pts, filt, i + 1, if i % filt == 0 then kept + [pts[i]] else kept)
  {
    KeptCountStep(i, filt);
    if i % filt == 0 {
      var kept' := kept + [pts[i]];
      assert |kept| == i / filt;
      assert (i / filt) * filt == i;
      forall k | 0 <= k < |kept'|
        ensures k * filt < i + 1 && kept'[k] == pts[k * filt]
      {
        if k < |kept| {
          assert kept'[k] == kept[k];
        }
      }
      forall j | 0 <= j < i + 1 && j % filt == 0
        ensures j / filt < |kept'| && kept'[j / filt] == pts[j]
      {
        if j < i {
          assert kept'[j / filt] == kept[j / filt];
        }
      }
    }
  }

  /** The `for i, x in enumerate(pts): if i % filt == 0` loop: the points
      written, in order. Point `k` of the result is point `k * filt` of the
      route, the result has `ceil(n / filt)` points, and every point at a
      multiple of `filt` is written. */
  method KeepEvery(pts: seq<Point>, filt: nat) returns (kept: seq<Point>)
    requires filt >= 1
    ensures |kept| == KeptCount(|pts|, filt)
    ensures forall k :: 0 <= k < |kept| ==> k * filt < |pts| && kept[k] == pts[k * filt]
    ensures forall i :: 0 <= i < |pts| && i % filt == 0 ==> i / filt < |kept| && kept[i / filt] == pts[i]
  {
    kept := [];
    var i := 0;
    while i < |pts|
      invariant 0 <= i <= |pts|
      invariant KeptUpTo(pts, filt, i, kept)
    {
      KeepStep(pts, filt, i, kept);
      if i % filt == 0 {
        kept := kept + [pts[i]];
      }
      i := i + 1;
    }
  }

  /** The first point is always written. */
  lemma FirstPointKept(pts: seq<Point>, kept: seq<Point>, filt: nat)
    requires filt >= 1 && |pts| > 0
    requires forall i :: 0 <= i < |pts| && i % filt == 0 ==> i / filt < |kept| && kept[i / filt] == pts[i]
    ensures |kept| > 0 && kept[0] == pts[0]
  {
    assert 0 % filt == 0 && 0 / filt == 0;
  }

  /** `sfile[:-4]`: all but the last four characters, or nothing for a
      shorter name. */
  function Stem(sfile: string): (s: string)
    ensures |sfile| >= 4 ==> |s| == |sfile| - 4 && sfile == s + sfile[|s|..]
    ensures |sfile| < 4 ==> s == []
  {
    if |sfile| >= 4 then sfile[..|sfile| - 4] else []
  }

  /** `sfile[:-4] + '_' + str(filt) + '.gpx'`. */
  function OutputName(sfile: string, filt: nat): (name: string)
    ensures |name| > |Stem(sfile)| + 5
    ensures name[..|Stem(sfile)|] == Stem(sfile)
    ensures name[|Stem(sfile)|] == '_'
    ensures name[|name| - 4..] == ".gpx"
    ensures AllDigits(name[|Stem(sfile)| + 1..|name| - 4])
    ensures DigitsValue(name[|Stem(sfile)| + 1..|name| - 4]) == filt
    ensures |name| - 4 - (|Stem(sfile)| + 1) > 1 ==> name[|Stem(sfile)| + 1] != '0'
  {
    var stem := Stem(sfile);
    var digits := Decimal(filt);
    var name := stem + "_" + digits + ".gpx";
    assert name[|stem| + 1..|name| - 4] == digits;
    DecimalRoundTrip(filt);
    name
  }

  /** Distinct thinning factors give distinct output names. */
  lemma OutputNamesDiffer(sfile: string, f1: nat, f2: nat)
    requires f1 != f2
    ensures OutputName(sfile, f1) != OutputName(sfile, f2)
  {
  }

  /** `CleanGPXFile(sfile)` on an already parsed document: the name of the
      file written and the points written to it, or the parse error. The
      points are at most `MAX_GETAMAP_POINTS`, start with the route's first
      point, and are every `filt`-th point of the route. */
  method CleanGpxFile(sfile: string, root: Node) returns (r: Result<(string, seq<Point>), ParseError>)
    ensures r.Ok? <==> RoutePoints(root).Ok?
    ensures r.Err? ==> r.error == RoutePoints(root).error
    ensures r.Ok? ==> r.value.0 == OutputName(sfile, Filt(|RoutePoints(root).value|))
    ensures r.Ok? ==> |r.value.1| <= MAX_GETAMAP_POINTS
    ensures r.Ok? && |RoutePoints(root).value| > 0 ==> |r.value.1| > 0 && r.value.1[0] == RoutePoints(root).value[0]
    ensures r.Ok? ==> KeptUpTo(RoutePoints(root).value, Filt(|RoutePoints(root).value|),
                               |RoutePoints(root).value|, r.value.1)
  {
    match RoutePoints(root)
    case Err(e) =>
      r := Err(e);
    case Ok(pts) =>
      var filt := Filt(|pts|);
      var kept := KeepEvery(pts, filt);
      KeptCountBound(|pts|);
      if |pts| > 0 {
        FirstPointKept(pts, kept, filt);
      }
      r := Ok((OutputName(sfile, filt), kept));
  }
}

=== FILE: elevation.dfy ===
/** Elevation lookup (`GetElev` and `GetListElev`, gpx_utils.py:165-195).
    Reading a tile archive from disk is a parameter: a byte source that maps
    a tile name to the bytes of its `.hgt` entry, or to `None` when the
    archive cannot be opened. A batch lookup keeps a cache of decoded tiles
    keyed by tile name for the duration of the call, and records every tile
    it loads. */
module Elevation {
  import opened Results
  import opened Addressing
  import opened Tile

  /** Stands for opening `<name>.hgt.zip` and reading its first entry. */
  type ByteSource = string -> Option<seq<byte>>

  /** The exceptions `LoadTile` raises. */
  datatype TileError =
    | TileNotFound(name: string)                   // archive missing or empty
    | TileCorrupt(name: string, why: DecodeError)  // wrong number of bytes

  /** `LoadTile(name)`: fetch the bytes and decode them. */
  function LoadTile(source: ByteSource, name: string): (r: Result<Grid, TileError>)
    ensures source(name).None? ==> r == Err(TileNotFound(name))
    ensures source(name).Some? ==> (r.Ok? <==> |source(name).value| == TILE_BYTES)
    ensures source(name).Some? && r.Err? ==> r == Err(TileCorrupt(name, Decode(source(name).value).error))
    ensures r.Ok? ==> IsTile(r.value)
  {
    match source(name)
    case None => Err(TileNotFound(name))
    case Some(bytes) =>
      match Decode(bytes)
      case Err(why) => Err(TileCorrupt(name, why))
      case Ok(g) => Ok(g)
  }

  /** A loaded tile is exactly the content of its file: encoding it gives
      back the bytes the source supplied. */
  lemma LoadedTileIsFile(source: ByteSource, name: string)
    requires LoadTile(source, name).Ok?
    ensures Encode(LoadTile(source, name).value) == source(name).value
  {
    EncodeDecode(source(name).value);
  }

  /** The lookups below see tile loading only through a loader: a function
      from tile name to decoded tile or error. */
  type Loader = string -> Result<Grid, TileError>

  /** A loader whose every tile is well formed, as `LoadTile`'s are. */
  ghost predicate Sound(load: Loader) {
    forall k :: load(k).Ok? ==> IsTile(load(k).value)
  }

  /** `LoadTile` over a byte source, as a loader. */
  function FromSource(source: ByteSource): (load: Loader)
    ensures Sound(load)
    ensures forall k :: load(k) == LoadTile(source, k)
  {
    k => LoadTile(source, k)
  }

  /** One row of the coordinate array passed to `GetListElev`. */
  datatype Coord = Coord(lat: real, lon: real)

  /** `SRTM_File(lat, lon)` of a coordinate. */
  function TileOf(p: Coord): string {
    SrtmFile(p.lat, p.lon)
  }

  /** `nTile[nrow][ncol]` with the row and column of `GetRowCol`, negative
      indices counting from the end as numpy does. */
  function Sample(g: Grid, p: Coord): (v: int)
    requires IsTile(g)
    ensures IsInt16(v)
  {
    var (row, col) := GetRowCol(p.lat, p.lon);
    g[NumpyIndex(row, LINES_PER_CELL)][NumpyIndex(col, LINES_PER_CELL)]
  }

  /** The position, in file order, of the sample a coordinate reads. */
  function FileOffset(p: Coord): (k: nat)
    ensures 2 * k + 1 < TILE_BYTES
  {
    var (row, col) := GetRowCol(p.lat, p.lon);
    (LINES_PER_CELL - 1 - NumpyIndex(row, LINES_PER_CELL)) * LINES_PER_CELL
      + NumpyIndex(col, LINES_PER_CELL)
  }

  /** `GetElev(lat, lon)`: loads the tile afresh and returns the raw sample,
      the void sentinel included; fails exactly when the tile fails to
      load. */
  function GetElev(load: Loader, p: Coord): (r: Result<int, TileError>)
    requires Sound(load)
    ensures r.Ok? <==> load(TileOf(p)).Ok?
    ensures r.Err? ==> r.error == load(TileOf(p)).error
    ensures r.Ok? ==> IsInt16(r.value)
  {
    match load(TileOf(p))
    case Err(e) => Err(e)
    case Ok(g) => Ok(Sample(g, p))
  }

  /** With the real loader, `GetElev` returns the sample stored in the tile
      file at the place `GetRowCol` designates (after the row flip). */
  lemma GetElevReadsFile(source: ByteSource, p: Coord)
    ensures GetElev(FromSource(source), p).Ok? ==>
              GetElev(FromSource(source), p).value == SampleAt(source(TileOf(p)).value, FileOffset(p))
  {
    var load := FromSource(source);
    if GetElev(load, p).Ok? {
      var bytes := source(TileOf(p)).value;
      var g := LoadTile(source, TileOf(p)).value;
      assert Decode(bytes) == Ok(g);
      var (row, col) := GetRowCol(p.lat, p.lon);
      var r := NumpyIndex(row, LINES_PER_CELL);
      var c := NumpyIndex(col, LINES_PER_CELL);
      assert GetElev(load, p).value == g[r][c];
    }
  }

  /** The lookup with the corrected index of `GetRowColIntended`: the
      sample nearest the coordinate, never wrapping. */
  function GetElevIntended(load: Loader, p: Coord): (r: Result<int, TileError>)
    requires Sound(load)
    ensures r.Ok? <==> load(TileOf(p)).Ok?
    ensures r.Err? ==> r.error == load(TileOf(p)).error
    ensures r.Ok? ==> IsInt16(r.value)
  {
    match load(TileOf(p))
    case Err(e) => Err(e)
    case Ok(g) =>
      var (row, col) := GetRowColIntended(p.lat, p.lon);
      Ok(g[row][col])
  }

  /** The position, in file order, of the sample the corrected lookup
      reads. */
  function IntendedOffset(p: Coord): (k: nat)
    ensures 2 * k + 1 < TILE_BYTES
  {
    var (row, col) := GetRowColIntended(p.lat, p.lon);
    (LINES_PER_CELL - 1 - row) * LINES_PER_CELL + col
  }

  /** With the real loader, the corrected lookup returns the sample stored
      in the tile file at file row 1200 - round(f * 1200). */
  lemma GetElevIntendedReadsFile(source: ByteSource, p: Coord)
    ensures GetElevIntended(FromSource(source), p).Ok? ==>
              GetElevIntended(FromSource(source), p).value
                == SampleAt(source(TileOf(p)).value, IntendedOffset(p))
  {
    var load := FromSource(source);
    if GetElevIntended(load, p).Ok? {
      var bytes := source(TileOf(p)).value;
      var g := LoadTile(source, TileOf(p)).value;
      assert Decode(bytes) == Ok(g);
      var (row, col) := GetRowColIntended(p.lat, p.lon);
      assert GetElevIntended(load, p).value == g[row][col];
    }
  }

  /** Tile files store their northernmost row first. At a whole-degree
      latitude the code reads file row 0, the tile's northern edge one
      degree away, while the corrected lookup reads the last file row, the
      southern edge, which lies on the latitude asked for. */
  lemma WholeDegreeFileRows(p: Coord)
    requires p.lat == p.lat.Floor as real
    ensures FileOffset(p) / LINES_PER_CELL == 0
    ensures IntendedOffset(p) / LINES_PER_CELL == LINES_PER_CELL - 1
  {
    var (row, col) := GetRowCol(p.lat, p.lon);
    assert NumpyIndex(row, LINES_PER_CELL) == LINES_PER_CELL - 1;
    var c := NumpyIndex(col, LINES_PER_CELL);
    assert FileOffset(p) == c;
    var (row', col') := GetRowColIntended(p.lat, p.lon);
    assert IntendedOffset(p) == (LINES_PER_CELL - 1) * LINES_PER_CELL + col';
  }

  /** `None if x == VOID_ELE else x`. */
  function VoidToNone(x: int): (o: Option<int>)
    ensures o.None? <==> x == VOID_ELE
    ensures o.Some? ==> o.value == x
  {
    if x == VOID_ELE then None else Some(x)
  }

  /** The value `GetListElev` should report for one coordinate, computed
      without any cache: `GetElev` with the void mapped to `None`. */
  function ElevOf(load: Loader, p: Coord): (r: Result<Option<int>, TileError>)
    requires Sound(load)
    ensures r.Ok? <==> load(TileOf(p)).Ok?
    ensures r.Ok? ==> (r.value.None? <==> GetElev(load, p).value == VOID_ELE)
    ensures r.Ok? && r.value.Some? ==> r.value.value == GetElev(load, p).value
  {
    match GetElev(load, p)
    case Err(e) => Err(e)
    case Ok(x) => Ok(VoidToNone(x))
  }

  /** The cache logic of `GetListElev` does not depend on how tile names
      are formed; it is stated for any naming of coordinates and used with
      `TileOf`. */
  type Namer = Coord -> string

  /** The uncached lookup of one coordinate under a naming. */
  function LookupWith(load: Loader, name: Namer, p: Coord): Result<Option<int>, TileError>
    requires Sound(load)
  {
    match load(name(p))
    case Err(e) => Err(e)
    case Ok(g) => Ok(VoidToNone(Sample(g, p)))
  }

  lemma LookupWithTileOf(load: Loader, p: Coord)
    requires Sound(load)
    ensures LookupWith(load, TileOf, p) == ElevOf(load, p)
  {
  }

  /** The state of one `GetListElev` call: the dict of decoded tiles, the
      names passed to `LoadTile` in call order, and the results so far. */
  datatype Session = Session(cache: map<string, Grid>, loads: seq<string>, values: seq<Option<int>>)

  predicate NoDup(s: seq<string>) {
    forall i, j :: 0 <= i < j < |s| ==> s[i] != s[j]
  }

  /** Every cached tile is what the loader yields for its name, and the
      load log names each cached tile exactly once. */
  predicate CacheSound(load: Loader, st: Session) {
    && (forall k :: k in st.cache ==> load(k) == Ok(st.cache[k]))
    && (forall i :: 0 <= i < |st.loads| ==> st.loads[i] in st.cache)
    && (forall k :: k in st.cache ==> k in st.loads)
    && NoDup(st.loads)
  }

  /** The tile names of a list of coordinates. */
  function Names(name: Namer, coords: seq<Coord>): set<string> {
    set i | 0 <= i < |coords| :: name(coords[i])
  }

  /** Every coordinate's tile loads. */
  predicate AllLoad(load: Loader, name: Namer, coords: seq<Coord>) {
    forall i :: 0 <= i < |coords| ==> load(name(coords[i])).Ok?
  }

  /** The tile of the coordinate at some `i` fails to load with `e`, and no
      earlier one fails: the exception a loop over the coordinates meets
      first. */
  predicate FirstFailure(load: Loader, name: Namer, coords: seq<Coord>, e: TileError) {
    exists i :: 0 <= i < |coords| && load(name(coords[i])) == Err(e)
      && forall j :: 0 <= j < i ==> load(name(coords[j])).Ok?
  }

  /** One iteration of the `GetListElev` loop: take the tile from the cache
      or load and cache it, then read and void-map the sample. */
  function Step(load: Loader, name: Namer, st: Session, p: Coord): (r: Result<Session, TileError>)
    requires Sound(load)
    requires CacheSound(load, st)
    ensures r.Ok? <==> load(name(p)).Ok?
    ensures r.Err? ==> r.error == load(name(p)).error
    ensures r.Ok? ==> CacheSound(load, r.value)
    ensures r.Ok? ==> r.value.cache.Keys == st.cache.Keys + {name(p)}
    ensures r.Ok? ==> r.value.values == st.values + [LookupWith(load, name, p).value]
    ensures r.Ok? && name(p) in st.cache ==> r.value.loads == st.loads
  {
    var s := name(p);
    if s in st.cache then
      Ok(Session(st.cache, st.loads, st.values + [VoidToNone(Sample(st.cache[s], p))]))
    else
      match load(s)
      case Err(e) => Err(e)
      case Ok(g) =>
        Ok(Session(st.cache[s := g], st.loads + [s], st.values + [VoidToNone(Sample(g, p))]))
  }

  lemma NamesCons(name: Namer, coords: seq<Coord>)
    requires |coords| > 0
    ensures Names(name, coords) == {name(coords[0])} + Names(name, coords[1..])
  {
    var rest := coords[1..];
    forall s | s in Names(name, coords)
      ensures s in {name(coords[0])} + Names(name, rest)
    {
      var i :| 0 <= i < |coords| && name(coords[i]) == s;
      if i > 0 {
        assert rest[i - 1] == coords[i];
      }
    }
    forall s | s in Names(name, rest)
      ensures s in Names(name, coords)
    {
      var i :| 0 <= i < |rest| && name(rest[i]) == s;
      assert coords[i + 1] == rest[i];
    }
  }

  /** The list the loop should produce, computed point by point without a
      cache. */
  function Expected(load: Loader, name: Namer, coords: seq<Coord>): (vs: seq<Option<int>>)
    requires Sound(load)
    requires AllLoad(load, name, coords)
    ensures |vs| == |coords|
  {
    if |coords| == 0 then []
    else
      assert load(name(coords[0])).Ok?;
      [LookupWith(load, name, coords[0]).value] + Expected(load, name, coords[1..])
  }

  /** Entry `i` of the reference list is the uncached lookup of point `i`. */
  lemma {:induction false} ExpectedAt(load: Loader, name: Namer, coords: seq<Coord>, i: int)
    requires Sound(load)
    requires AllLoad(load, name, coords)
    requires 0 <= i < |coords|
    ensures LookupWith(load, name, coords[i]) == Ok(Expected(load, name, coords)[i])
    decreases i
  {
    if i > 0 {
      var rest := coords[1..];
      assert rest[i - 1] == coords[i];
      ExpectedAt(load, name, rest, i - 1);
    } else {
      assert load(name(coords[0])).Ok?;
    }
  }

  /** The `GetListElev` loop from a given state over the remaining
      coordinates: it stops at the first tile that fails to load, and keeps
      the cache sound. What it computes is stated by `RunOutcome`,
      `RunCache` and `RunValues`. */
  function Run(load: Loader, name: Namer, coords: seq<Coord>, st: Session): (r: Result<Session, TileError>)
    requires Sound(load)
    requires CacheSound(load, st)
    ensures r.Ok? ==> CacheSound(load, r.value)
    ensures r.Ok? ==> |r.value.values| == |st.values| + |coords|
    decreases |coords|
  {
    if |coords| == 0 then Ok(st)
    else
      match Step(load, name, st, coords[0])
      case Err(e) => Err(e)
      case Ok(st') => Run(load, name, coords[1..], st')
  }

  /** The loop fails exactly when some coordinate's tile fails to load, and
      then with the error of the first such coordinate. */
  lemma {:induction false} RunOutcome(load: Loader, name: Namer, coords: seq<Coord>, st: Session)
    requires Sound(load)
    requires CacheSound(load, st)
    ensures Run(load, name, coords, st).Ok? <==> AllLoad(load, name, coords)
    ensures Run(load, name, coords, st).Err? ==> FirstFailure(load, name, coords, Run(load, name, coords, st).error)
    decreases |coords|
  {
    if |coords| > 0 {
      match Step(load, name, st, coords[0])
      case Err(e) =>
        assert load(name(coords[0])) == Err(e);
      case Ok(st') =>
        RunOutcome(load, name, coords[1..], st');
        var r := Run(load, name, coords[1..], st');
        if r.Ok? {
          RunExtends(load, name, coords);
        } else {
          FailureExtends(load, name, coords, r.error);
        }
    }
  }

  /** On success the cache has gained exactly the tiles of the coordinates. */
  lemma {:induction false} RunCache(load: Loader, name: Namer, coords: seq<Coord>, st: Session)
    requires Sound(load)
    requires CacheSound(load, st)
    ensures Run(load, name, coords, st).Ok? ==>
              Run(load, name, coords, st).value.cache.Keys == st.cache.Keys + Names(name, coords)
    decreases |coords|
  {
    if |coords| > 0 {
      match Step(load, name, st, coords[0])
      case Err(e) =>
      case Ok(st') =>
        RunCache(load, name, coords[1..], st');
        NamesCons(name, coords);
    }
  }

  /** On success the loop has appended the uncached reference values. */
  lemma {:induction false} RunValues(load: Loader, name: Namer, coords: seq<Coord>, st: Session)
    requires Sound(load)
    requires CacheSound(load, st)
    ensures Run(load, name, coords, st).Ok? ==>
              AllLoad(load, name, coords) &&
              Run(load, name, coords, st).value.values == st.values + Expected(load, name, coords)
    decreases |coords|
  {
    if |coords| > 0 {
      match Step(load, name, st, coords[0])
      case Err(e) =>
      case Ok(st') =>
        RunValues(load, name, coords[1..], st');
        if Run(load, name, coords[1..], st').Ok? {
          RunExtends(load, name, coords);
        }
    }
  }

  /** The first coordinate's tile and those of the rest together make up
      the tiles and values of the whole list. */
  lemma RunExtends(load: Loader, name: Namer, coords: seq<Coord>)
    requires Sound(load)
    requires |coords| > 0
    requires load(name(coords[0])).Ok?
    requires AllLoad(load, name, coords[1..])
    ensures AllLoad(load, name, coords)
    ensures Expected(load, name, coords)
         == [LookupWith(load, name, coords[0]).value] + Expected(load, name, coords[1..])
  {
    var rest := coords[1..];
    forall i | 0 <= i < |coords|
      ensures load(name(coords[i])).Ok?
    {
      if i > 0 {
        assert coords[i] == rest[i - 1];
      }
    }
  }

  lemma FailureExtends(load: Loader, name: Namer, coords: seq<Coord>, e: TileError)
    requires |coords| > 0
    requires load(name(coords[0])).Ok?
    requires FirstFailure(load, name, coords[1..], e)
    ensures FirstFailure(load, name, coords, e)
    ensures !AllLoad(load, name, coords)
  {
    var rest := coords[1..];
    var i :| 0 <= i < |rest| && load(name(rest[i])) == Err(e)
      && forall j :: 0 <= j < i ==> load(name(rest[j])).Ok?;
    assert rest[i] == coords[i + 1];
    forall j | 0 <= j < i + 1
      ensures load(name(coords[j])).Ok?
    {
      if j > 0 {
        assert coords[j] == rest[j - 1];
      }
    }
  }

  /** `GetListElev(npCoord)`. The result's `values` is the returned list; its
      cache and load log are the dict of the call and the names passed to
      `LoadTile`. The call fails exactly when some coordinate's tile cannot
      be loaded, with the error of the first such coordinate; otherwise the
      list has one entry per coordinate. `GetListElevValues`,
      `GetListElevCache` and `GetListElevLoadsOnce` state the rest. */
  function GetListElev(load: Loader, coords: seq<Coord>): (r: Result<Session, TileError>)
    requires Sound(load)
    ensures r.Ok? <==> AllLoad(load, TileOf, coords)
    ensures r.Err? ==> FirstFailure(load, TileOf, coords, r.error)
    ensures r.Ok? ==> |r.value.values| == |coords|
  {
    var empty := Session(map[], [], []);
    RunOutcome(load, TileOf, coords, empty);
    Run(load, TileOf, coords, empty)
  }

  /** The cache changes nothing: entry `i` of the list is what a separate
      `GetElev` call for coordinate `i` returns, with the void sample
      reported as `None`. */
  lemma GetListElevValues(load: Loader, coords: seq<Coord>, i: int)
    requires Sound(load)
    requires GetListElev(load, coords).Ok?
    requires 0 <= i < |coords|
    ensures ElevOf(load, coords[i]) == Ok(GetListElev(load, coords).value.values[i])
  {
    var empty := Session(map[], [], []);
    RunValues(load, TileOf, coords, empty);
    ExpectedAt(load, TileOf, coords, i);
    LookupWithTileOf(load, coords[i]);
  }

  /** At the end of the call the cache holds exactly the tiles of the
      coordinates, each as the loader yields it. */
  lemma GetListElevCache(load: Loader, coords: seq<Coord>)
    requires Sound(load)
    requires GetListElev(load, coords).Ok?
    ensures GetListElev(load, coords).value.cache.Keys == Names(TileOf, coords)
    ensures forall k :: k in GetListElev(load, coords).value.cache ==>
              load(k) == Ok(GetListElev(load, coords).value.cache[k])
  {
    RunCache(load, TileOf, coords, Session(map[], [], []));
  }

  /** Every tile of the coordinates is loaded exactly once: the load log
      has no repetition and names each of them. */
  lemma GetListElevLoadsOnce(load: Loader, coords: seq<Coord>)
    requires Sound(load)
    requires GetListElev(load, coords).Ok?
    ensures NoDup(GetListElev(load, coords).value.loads)
    ensures |GetListElev(load, coords).value.loads| == |Names(TileOf, coords)|
    ensures forall i :: 0 <= i < |GetListElev(load, coords).value.loads| ==>
              GetListElev(load, coords).value.loads[i] in Names(TileOf, coords)
  {
    RunCache(load, TileOf, coords, Session(map[], [], []));
    LogMatchesCache(load, GetListElev(load, coords).value);
  }

  /** In a sound cache the load log lists each cached tile exactly once. */
  lemma LogMatchesCache(load: Loader, st: Session)
    requires CacheSound(load, st)
    ensures NoDup(st.loads)
    ensures |st.loads| == |st.cache.Keys|
  {
    DistinctCount(st.loads, st.cache.Keys);
  }

  /** A duplicate-free list of names has as many entries as it has names. */
  lemma {:induction false} DistinctCount(s: seq<string>, names: set<string>)
    requires NoDup(s)
    requires forall i :: 0 <= i < |s| ==> s[i] in names
    requires forall k :: k in names ==> k in s
    ensures |s| == |names|
    decreases |s|
  {
    if |s| > 0 {
      var last := s[|s| - 1];
      var init := s[..|s| - 1];
      assert forall k :: k in names - {last} ==> k in init by {
        forall k | k in names - {last}
          ensures k in init
        {
          var i :| 0 <= i < |s| && s[i] == k;
          assert i < |s| - 1;
          assert init[i] == k;
        }
      }
      DistinctCount(init, names - {last});
    }
  }
}

=== FILE: metrics.dfy ===
/** Route metrics over the parsed points: total ascent (`GetAscent`,
    gpx_utils.py:92-102) and route length (`Dist` and `RouteDistance`,
    gpx_utils.py:24-56). The length formulas use trigonometry and square
    roots, which enter as parameters: only their structure is modelled. */
module Metrics {
  import opened Results
  import opened Route

  function Max(a: real, b: real): (m: real)
    ensures m >= a && m >= b && (m == a || m == b)
  {
    if a >= b then a else b
  }

  /** What one consecutive pair adds to the ascent: the climb from `x1` to
      `x2` when both have an elevation, nothing otherwise. */
  function StepAscent(x1: Point, x2: Point): (d: real)
    ensures d >= 0.0
    ensures x1.ele.None? || x2.ele.None? ==> d == 0.0
    ensures x1.ele.Some? && x2.ele.Some? && x2.ele.value >= x1.ele.value ==>
              d == x2.ele.value - x1.ele.value
    ensures x1.ele.Some? && x2.ele.Some? && x2.ele.value <= x1.ele.value ==> d == 0.0
  {
    if x1.ele.Some? && x2.ele.Some? then Max(x2.ele.value - x1.ele.value, 0.0) else 0.0
  }

  /** The sum of the climbs of all consecutive pairs. */
  function Ascent(pts: seq<Point>): (a: real)
    ensures a >= 0.0
    ensures |pts| < 2 ==> a == 0.0
  {
    if |pts| < 2 then 0.0
    else Ascent(pts[..|pts| - 1]) + StepAscent(pts[|pts| - 2], pts[|pts| - 1])
  }

  /** Ascent is additive over a route split at a shared point: the climbs
      of the two halves plus nothing more. */
  lemma {:induction false} AscentSplit(a: seq<Point>, p: Point, b: seq<Point>)
    ensures Ascent(a + [p] + b) == Ascent(a + [p]) + Ascent([p] + b)
    decreases |b|
  {
    if |b| > 0 {
      var whole := a + [p] + b;
      var b' := b[..|b| - 1];
      assert whole[..|whole| - 1] == a + [p] + b';
      assert ([p] + b)[..|b|] == [p] + b';
      AscentSplit(a, p, b');
      if |b'| == 0 {
        assert whole[|whole| - 2] == p;
      } else {
        assert whole[|whole| - 2] == b'[|b'| - 1];
      }
    } else {
      assert a + [p] + b == a + [p];
    }
  }

  /** A climb is never less than the net gain: when every point has an
      elevation, the ascent is at least the last elevation minus the
      first. */
  lemma {:induction false} AscentAtLeastNetGain(pts: seq<Point>)
    requires |pts| >= 1
    requires forall i :: 0 <= i < |pts| ==> pts[i].ele.Some?
    ensures Ascent(pts) >= pts[|pts| - 1].ele.value - pts[0].ele.value
    decreases |pts|
  {
    if |pts| >= 2 {
      var init := pts[..|pts| - 1];
      assert init[0] == pts[0] && init[|init| - 1] == pts[|pts| - 2];
      AscentAtLeastNetGain(init);
    }
  }

  /** The `for x2, x1 in zip(pts[1:], pts[:-1])` loop over the points of a
      route. */
  method AscentOf(pts: seq<Point>) returns (ascent: real)
    ensures ascent == Ascent(pts)
    ensures ascent >= 0.0
  {
    ascent := 0.0;
    if |pts| < 2 {
      return;
    }
    var i := 1;
    while i < |pts|
      invariant 1 <= i <= |pts|
      invariant ascent == Ascent(pts[..i])
    {
      assert pts[..i + 1][..i] == pts[..i];
      ascent := ascent + StepAscent(pts[i - 1], pts[i]);
      i := i + 1;
    }
    assert pts[..i] == pts;
  }

  /** `GetAscent(sfile)` on an already parsed document: fails as
      `ParseRoute` does or when the root is not a route container, and
      otherwise sums the climbs. */
  method GetAscent(root: Node) returns (r: Result<real, ParseError>)
    ensures r.Ok? <==> RoutePoints(root).Ok?
    ensures r.Ok? ==> r.value == Ascent(RoutePoints(root).value) && r.value >= 0.0
    ensures r.Err? ==> r.error == RoutePoints(root).error
  {
    match RoutePoints(root)
    case Err(e) =>
      r := Err(e);
    case Ok(pts) =>
      var a := AscentOf(pts);
      r := Ok(a);
  }

  /** The Earth model of the length formulas: `DeltaLat` and `DeltaLong`
      (metres per degree at a latitude) and the square root. */
  datatype Earth = Earth(deltaLat: real -> real, deltaLong: real -> real, sqrt: real -> real)

  /** `Dist(lat1, lon1, lat2, lon2)`: the flat-Earth distance in metres,
      scaled at the mean latitude. */
  function Dist(e: Earth, lat1: real, lon1: real, lat2: real, lon2: real): (d: real)
    ensures lat1 == lat2 && lon1 == lon2 ==> d == e.sqrt(0.0)
  {
    var mid := (lat1 + lat2) / 2.0;
    var x := (lon2 - lon1) * e.deltaLong(mid);
    var y := (lat2 - lat1) * e.deltaLat(mid);
    assert lat1 == lat2 && lon1 == lon2 ==> x == 0.0 && y == 0.0;
    e.sqrt(x * x + y * y)
  }

  /** The distance does not depend on the direction of travel. */
  lemma DistSymmetric(e: Earth, lat1: real, lon1: real, lat2: real, lon2: real)
    ensures Dist(e, lat1, lon1, lat2, lon2) == Dist(e, lat2, lon2, lat1, lon1)
  {
    var mid := (lat1 + lat2) / 2.0;
    assert (lat2 + lat1) / 2.0 == mid;
    var x := (lon2 - lon1) * e.deltaLong(mid);
    var y := (lat2 - lat1) * e.deltaLat(mid);
    assert (lon1 - lon2) * e.deltaLong(mid) == -x;
    assert (lat1 - lat2) * e.deltaLat(mid) == -y;
    assert (-x) * (-x) == x * x && (-y) * (-y) == y * y;
  }

  /** A point is at the distance `sqrt(0)` from itself, which is zero for
      a square root that maps 0 to 0, as `math.sqrt` does. */
  lemma DistSelf(e: Earth, lat: real, lon: real)
    ensures Dist(e, lat, lon, lat, lon) == e.sqrt(0.0)
    ensures e.sqrt(0.0) == 0.0 ==> Dist(e, lat, lon, lat, lon) == 0.0
  {
  }

  /** The length of a route in kilometres: the distances of consecutive
      points, each divided by 1000, summed. */
  function RouteDistance(e: Earth, pts: seq<Point>): (d: real)
    ensures |pts| <= 1 ==> d == 0.0
  {
    if |pts| <= 1 then 0.0
    else
      var p := pts[|pts| - 2];
      var q := pts[|pts| - 1];
      RouteDistance(e, pts[..|pts| - 1]) + Dist(e, p.lat, p.lon, q.lat, q.lon) / 1000.0
  }

  /** `RouteDistance(sfile)` on an already parsed document: fails as
      `ParseRoute` does or when the root is not a route container, and is
      zero for a route of at most one point. */
  function RouteLength(e: Earth, root: Node): (r: Result<real, ParseError>)
    ensures r.Ok? <==> RoutePoints(root).Ok?
    ensures r.Err? ==> r.error == RoutePoints(root).error
    ensures r.Ok? && |RoutePoints(root).value| <= 1 ==> r.value == 0.0
  {
    match RoutePoints(root)
    case Err(err) => Err(err)
    case Ok(pts) => Ok(RouteDistance(e, pts))
  }

  /** The route from its first point, followed by the route's first leg. */
  lemma {:induction false} RouteDistanceFront(e: Earth, p: Point, q: Point, rest: seq<Point>)
    ensures RouteDistance(e, [p, q] + rest)
         == Dist(e, p.lat, p.lon, q.lat, q.lon) / 1000.0 + RouteDistance(e, [q] + rest)
    decreases |rest|
  {
    if |rest| == 0 {
      assert [p, q] + rest == [p, q];
      assert ([p, q])[..1] == [p];
      assert [q] + rest == [q];
    } else {
      var init := rest[..|rest| - 1];
      var whole := [p, q] + rest;
      assert whole[..|whole| - 1] == [p, q] + init;
      assert ([q] + rest)[..|rest|] == [q] + init;
      RouteDistanceFront(e, p, q, init);
      var n := |whole|;
      assert whole[n - 1] == rest[|rest| - 1] == ([q] + rest)[|rest|];
      assert whole[n - 2] == ([q] + rest)[|rest| - 1];
    }
  }

  function Reverse(pts: seq<Point>): (r: seq<Point>)
    ensures |r| == |pts|
    ensures forall i :: 0 <= i < |pts| ==> r[i] == pts[|pts| - 1 - i]
  {
    seq(|pts|, i requires 0 <= i < |pts| => pts[|pts| - 1 - i])
  }

  /** Walking a route backwards covers the same distance. */
  lemma {:induction false} RouteDistanceReverse(e: Earth, pts: seq<Point>)
    ensures RouteDistance(e, Reverse(pts)) == RouteDistance(e, pts)
    decreases |pts|
  {
    if |pts| >= 2 {
      var init := pts[..|pts| - 1];
      var p := pts[|pts| - 2];
      var q := pts[|pts| - 1];
      var rev := Reverse(pts);
      var revInit := Reverse(init);
      assert revInit[0] == p;
      assert rev == [q, p] + revInit[1..];
      assert [p] + revInit[1..] == revInit;
      RouteDistanceFront(e, q, p, revInit[1..]);
      RouteDistanceReverse(e, init);
      DistSymmetric(e, q.lat, q.lon, p.lat, p.lon);
    }
  }
}

=== FILE: pynum.dfy ===
/** The Python 2 numeric conversions the tile code relies on, over exact
    reals: `int()` on a float, the built-in `round`, and decimal formatting
    of a non-negative whole number with zero padding. */
module PyNum {

  /** Python 2 `int(x)` for a float `x`: truncation toward zero. */
  function Trunc(x: real): (t: int)
    ensures 0.0 <= x ==> t as real <= x < t as real + 1.0
    ensures x < 0.0 ==> t as real - 1.0 < x <= t as real
  {
    if x >= 0.0 then x.Floor else -((-x).Floor)
  }

  /** Python 2 `round(x)`: to the nearest whole number, halves rounded away
      from zero. */
  function Round(x: real): (r: int)
    ensures r as real - x <= 0.5 && x - r as real <= 0.5
    ensures r as real - x == 0.5 ==> x > 0.0
    ensures x - r as real == 0.5 ==> x < 0.0
  {
    if x >= 0.0 then (x + 0.5).Floor else -((0.5 - x).Floor)
  }

  /** On non-negative inputs `round` is `floor(x + 1/2)`. */
  lemma RoundNonNegative(x: real)
    requires x > -0.5
    ensures Round(x) == (x + 0.5).Floor
  {
    if x < 0.0 {
      assert (0.5 - x).Floor == 0;
    }
  }

  predicate IsDigit(c: char) {
    '0' <= c <= '9'
  }

  predicate AllDigits(s: string) {
    forall i :: 0 <= i < |s| ==> IsDigit(s[i])
  }

  function DigitChar(d: nat): (c: char)
    requires d < 10
    ensures IsDigit(c)
  {
    ('0' as int + d) as char
  }

  /** The base-ten digits of `n`, most significant first, without leading
      zeros: Python's `str(n)` for a non-negative int. */
  function Decimal(n: nat): (s: string)
    ensures 1 <= |s|
    ensures AllDigits(s)
    ensures n >= 10 ==> s[0] != '0'
    decreases n
  {
    if n < 10 then [DigitChar(n)] else Decimal(n / 10) + [DigitChar(n % 10)]
  }

  /** The number a string of decimal digits denotes (the inverse of
      `Decimal`, and blind to leading zeros). */
  function DigitsValue(s: string): nat
    requires AllDigits(s)
  {
    if |s| == 0 then 0
    else DigitsValue(s[..|s| - 1]) * 10 + (s[|s| - 1] as int - '0' as int)
  }

  lemma {:induction false} DecimalRoundTrip(n: nat)
    ensures DigitsValue(Decimal(n)) == n
    decreases n
  {
    if n >= 10 {
      var s := Decimal(n);
      assert s[..|s| - 1] == Decimal(n / 10);
      DecimalRoundTrip(n / 10);
    }
  }

  /** A number below a power of ten has at most that many digits. */
  lemma DecimalLength(n: nat)
    ensures n < 10 ==> |Decimal(n)| == 1
    ensures 10 <= n < 100 ==> |Decimal(n)| == 2
    ensures 100 <= n < 1000 ==> |Decimal(n)| == 3
  {
    if n >= 10 {
      assert |Decimal(n)| == |Decimal(n / 10)| + 1;
      if n >= 100 {
        assert |Decimal(n / 10)| == |Decimal(n / 100)| + 1;
      }
    }
  }

  /** Left-pads `s` with '0' up to `width` characters, as the `0<width>`
      part of a Python format spec does. */
  function ZeroPad(s: string, width: nat): (p: string)
    ensures |p| == if |s| >= width then |s| else width
    ensures p[|p| - |s|..] == s
    ensures forall i :: 0 <= i < |p| - |s| ==> p[i] == '0'
  {
    if |s| >= width then s else seq(width - |s|, _ => '0') + s
  }

  lemma {:induction false} LeadingZerosIgnored(z: string, s: string)
    requires forall i :: 0 <= i < |z| ==> z[i] == '0'
    requires AllDigits(s)
    ensures AllDigits(z + s)
    ensures DigitsValue(z + s) == DigitsValue(s)
    decreases |s|
  {
    if |s| == 0 {
      assert z + s == z;
      AllZerosValue(z);
    } else {
      var t := z + s;
      assert t[..|t| - 1] == z + s[..|s| - 1];
      LeadingZerosIgnored(z, s[..|s| - 1]);
    }
  }

  lemma {:induction false} AllZerosValue(z: string)
    requires forall i :: 0 <= i < |z| ==> z[i] == '0'
    ensures AllDigits(z)
    ensures DigitsValue(z) == 0
    decreases |z|
  {
    if |z| > 0 {
      AllZerosValue(z[..|z| - 1]);
    }
  }

  /** Python's `"{0:0<width>n}".format(n)` for a whole number `n`, written
      out in full. */
  function FormatPadded(n: nat, width: nat): (s: string)
    ensures AllDigits(s)
    ensures DigitsValue(s) == n
    ensures width <= |s|
  {
    var d := Decimal(n);
    var p := ZeroPad(d, width);
    DecimalRoundTrip(n);
    assert p == p[..|p| - |d|] + d;
    LeadingZerosIgnored(p[..|p| - |d|], d);
    p
  }

  /** The padded text is the canonical one: exactly as long as the larger
      of the width and the digit count of `n`, with no leading zero beyond
      the padding. With `FormatPadded`'s value clause this fixes the text. */
  lemma FormatPaddedCanonical(n: nat, width: nat)
    ensures |FormatPadded(n, width)| == if |Decimal(n)| >= width then |Decimal(n)| else width
    ensures |FormatPadded(n, width)| > 1 && |FormatPadded(n, width)| > width ==>
              FormatPadded(n, width)[0] != '0'
  {
  }
}

=== FILE: results.dfy ===
/** Optional values and success-or-error results, used wherever the Python
    code returns `None` or raises an exception. */
module Results {

  /** A value that may be absent: Python's `None` versus a present value. */
  datatype Option<+T> = None | Some(value: T)

  /** The outcome of an operation that either produces a value or fails
      with the error the Python code would raise. */
  datatype Result<+T, +E> = Ok(value: T) | Err(error: E)
}

=== FILE: route.dfy ===
/** Route-point extraction (`NodeType` and `ParseRoute`, gpx_utils.py:58-90):
    a GPX element tree is flattened, in document order, into the list of its
    track and route points. The tree arrives already parsed, with the `lat`
    and `lon` attributes and the text of `ele` elements already converted
    to numbers. */
module Route {
  import opened Results

  /** An element: its tag (possibly `{namespace}local`), its numeric
      attributes, its text as a number (`None` when the element has no text
      or the text is not a number), and its children in document order. */
  datatype Node = Node(tag: string, attrib: map<string, real>, text: Option<real>, children: seq<Node>)

  /** A parsed point: the dict with keys 'lat', 'lon' and, when present,
      'ele'. */
  datatype Point = Point(lat: real, lon: real, ele: Option<real>)

  /** What `ParseRoute` returns for a node: a list of points for a
      container, a single point dict for a point element, `None` for
      anything else. */
  datatype Parsed = Many(points: seq<Point>) | One(point: Point) | Ignored

  /** The exceptions parsing can raise: a `KeyError` for a point without
      `lat` or `lon`, a failing `float(c.text)` for an elevation element, and
      the `TypeError` or `KeyError` a caller meets when the root is not a
      container. */
  datatype ParseError = MissingAttribute(key: string) | BadElevation | NotARoute

  /** `s.find(c)`: the first position of `c` in `s`, or -1. */
  function Find(s: string, c: char): (i: int)
    ensures -1 <= i < |s|
    ensures i >= 0 ==> s[i] == c
    ensures i >= 0 ==> forall j :: 0 <= j < i ==> s[j] != c
    ensures i == -1 <==> c !in s
  {
    if |s| == 0 then -1
    else if s[0] == c then 0
    else
      var k := Find(s[1..], c);
      assert forall j :: 1 <= j < |s| ==> s[j] == s[1..][j - 1];
      if k == -1 then -1 else k + 1
  }

  predicate IsLower(c: char) {
    'a' <= c <= 'z'
  }

  /** `c.upper()` for a single character of an ASCII tag. */
  function UpperChar(c: char): (u: char)
    ensures !IsLower(u)
    ensures IsLower(c) ==> u as int == c as int - 32
    ensures !IsLower(c) ==> u == c
  {
    if IsLower(c) then (c as int - 32) as char else c
  }

  /** `s.upper()` on an ASCII string. */
  function Upper(s: string): (u: string)
    ensures |u| == |s|
    ensures forall i :: 0 <= i < |s| ==> u[i] == UpperChar(s[i])
  {
    seq(|s|, i requires 0 <= i < |s| => UpperChar(s[i]))
  }

  /** `NodeType(sTag)`: the tag after its first '}', upper-cased; the whole
      tag upper-cased when it has no '}'. */
  function NodeType(tag: string): (t: string)
    ensures '}' !in tag ==> t == Upper(tag)
    ensures |t| <= |tag|
  {
    var i := Find(tag, '}');
    Upper(tag[i + 1..])
  }

  /** A namespace prefix ending in the first '}' is dropped; whatever
      follows is kept, further '}' included. */
  lemma NodeTypeAfterNamespace(prefix: string, local: string)
    requires '}' !in prefix
    ensures NodeType(prefix + "}" + local) == Upper(local)
  {
    var tag := prefix + "}" + local;
    assert tag[|prefix|] == '}';
    forall j | 0 <= j < |prefix|
      ensures tag[j] != '}'
    {
      assert tag[j] == prefix[j];
    }
    assert Find(tag, '}') == |prefix|;
    assert tag[|prefix| + 1..] == local;
  }

  /** The element kinds `ParseRoute` descends into. */
  predicate IsContainer(t: string) {
    t == "GPX" || t == "TRK" || t == "TRKSEG" || t == "RTE" || t == "RTESEG"
  }

  /** The element kinds that become points. */
  predicate IsPointTag(t: string) {
    t == "TRKPT" || t == "RTEPT"
  }

  /** The `for c in node` loop of a point element: the text of the first
      child whose type is ELE, if any. Later ELE children are never looked
      at, even when the first one has no usable text. */
  function FirstEle(cs: seq<Node>): (r: Result<Option<real>, ParseError>)
    ensures r == Ok(None) <==> forall i :: 0 <= i < |cs| ==> NodeType(cs[i].tag) != "ELE"
    ensures r.Err? ==> r.error == BadElevation
  {
    if |cs| == 0 then Ok(None)
    else if NodeType(cs[0].tag) == "ELE" then
      (match cs[0].text
       case None => Err(BadElevation)
       case Some(v) => Ok(Some(v)))
    else
      var r := FirstEle(cs[1..]);
      assert forall i :: 1 <= i < |cs| ==> cs[i] == cs[1..][i - 1];
      r
  }

  /** The elevation is decided by the first ELE child alone. */
  lemma {:induction false} FirstEleAt(cs: seq<Node>, i: int)
    requires 0 <= i < |cs|
    requires NodeType(cs[i].tag) == "ELE"
    requires forall j :: 0 <= j < i ==> NodeType(cs[j].tag) != "ELE"
    ensures cs[i].text.None? ==> FirstEle(cs) == Err(BadElevation)
    ensures cs[i].text.Some? ==> FirstEle(cs) == Ok(Some(cs[i].text.value))
    decreases i
  {
    if i > 0 {
      assert cs[1..][i - 1] == cs[i];
      forall j | 0 <= j < i - 1
        ensures NodeType(cs[1..][j].tag) != "ELE"
      {
        assert cs[1..][j] == cs[j + 1];
      }
      FirstEleAt(cs[1..], i - 1);
    }
  }

  /** The point branch of `ParseRoute`: `lat` is read before `lon`, then the
      first ELE child. */
  function ParsePoint(n: Node): (r: Result<Point, ParseError>)
    ensures r.Ok? <==> "lat" in n.attrib && "lon" in n.attrib && FirstEle(n.children).Ok?
    ensures "lat" !in n.attrib ==> r == Err(MissingAttribute("lat"))
    ensures "lat" in n.attrib && "lon" !in n.attrib ==> r == Err(MissingAttribute("lon"))
    ensures r.Ok? ==> r.value.lat == n.attrib["lat"] && r.value.lon == n.attrib["lon"]
                      && r.value.ele == FirstEle(n.children).value
  {
    if "lat" !in n.attrib then Err(MissingAttribute("lat"))
    else if "lon" !in n.attrib then Err(MissingAttribute("lon"))
    else
      match FirstEle(n.children)
      case Err(e) => Err(e)
      case Ok(ele) => Ok(Point(n.attrib["lat"], n.attrib["lon"], ele))
  }

  /** What a parsed child adds to its container's list: a point is
      appended, a list is spliced in, anything else adds nothing. */
  function Contribution(x: Parsed): seq<Point> {
    match x
    case Many(ps) => ps
    case One(p) => [p]
    case Ignored => []
  }

  /** `ParseRoute(node)`. Exceptions propagate: the first failing element in
      document order decides the error. */
  function ParseRoute(n: Node): (r: Result<Parsed, ParseError>)
    ensures r.Ok? && IsContainer(NodeType(n.tag)) ==> r.value.Many?
    ensures IsPointTag(NodeType(n.tag)) ==> r == (match ParsePoint(n)
                                                 case Err(e) => Err(e)
                                                 case Ok(p) => Ok(One(p)))
    ensures !IsContainer(NodeType(n.tag)) && !IsPointTag(NodeType(n.tag)) ==> r == Ok(Ignored)
    decreases n, 1
  {
    var t := NodeType(n.tag);
    if IsContainer(t) then
      match ParseChildren(n.children)
      case Err(e) => Err(e)
      case Ok(ps) => Ok(Many(ps))
    else if IsPointTag(t) then
      match ParsePoint(n)
      case Err(e) => Err(e)
      case Ok(p) => Ok(One(p))
    else Ok(Ignored)
  }

  /** One iteration of the `for child in node` loop: the child's outcome
      followed by the rest of the loop. */
  function Cons(x: Result<Parsed, ParseError>, rest: Result<seq<Point>, ParseError>): Result<seq<Point>, ParseError> {
    match x
    case Err(e) => Err(e)
    case Ok(v) =>
      match rest
      case Err(e) => Err(e)
      case Ok(ps) => Ok(Contribution(v) + ps)
  }

  /** The `for child in node` loop of a container: no children give no
      points, a failing first child stops the loop with its error, and a
      single child gives what it contributes. */
  function ParseChildren(cs: seq<Node>): (r: Result<seq<Point>, ParseError>)
    ensures |cs| == 0 ==> r == Ok([])
    ensures |cs| > 0 && ParseRoute(cs[0]).Err? ==> r == Err(ParseRoute(cs[0]).error)
    ensures |cs| == 1 && ParseRoute(cs[0]).Ok? ==> r == Ok(Contribution(ParseRoute(cs[0]).value))
    decreases cs, 0
  {
    if |cs| == 0 then Ok([])
    else
      var rest := ParseChildren(cs[1..]);
      var x := ParseRoute(cs[0]);
      assert |cs| == 1 ==> rest == Ok([]);
      assert |cs| == 1 && x.Ok? ==> Contribution(x.value) + [] == Contribution(x.value);
      Cons(x, rest)
  }

  /** Two loops run one after the other: the first error stops everything,
      otherwise the lists are concatenated. */
  function Join(a: Result<seq<Point>, ParseError>, b: Result<seq<Point>, ParseError>): (r: Result<seq<Point>, ParseError>)
    ensures a.Err? ==> r == a
    ensures a.Ok? && b.Err? ==> r == b
    ensures a.Ok? && b.Ok? ==> r == Ok(a.value + b.value)
  {
    if a.Err? then a else if b.Err? then b else Ok(a.value + b.value)
  }

  lemma ConsJoin(x: Result<Parsed, ParseError>, a: Result<seq<Point>, ParseError>, b: Result<seq<Point>, ParseError>)
    ensures Cons(x, Join(a, b)) == Join(Cons(x, a), b)
  {
    if x.Ok? && a.Ok? && b.Ok? {
      assert Contribution(x.value) + (a.value + b.value) == (Contribution(x.value) + a.value) + b.value;
    }
  }

  /** A container's list is built child by child: the children of `a + b`
      give the list of `a` followed by the list of `b`, and the first error
      in document order wins. */
  lemma {:induction false} ParseChildrenAppend(a: seq<Node>, b: seq<Node>)
    ensures ParseChildren(a + b) == Join(ParseChildren(a), ParseChildren(b))
    decreases |a|
  {
    if |a| == 0 {
      assert a + b == b;
      if ParseChildren(b).Ok? {
        assert [] + ParseChildren(b).value == ParseChildren(b).value;
      }
    } else {
      assert (a + b)[0] == a[0];
      assert (a + b)[1..] == a[1..] + b;
      ParseChildrenAppend(a[1..], b);
      ConsJoin(ParseRoute(a[0]), ParseChildren(a[1..]), ParseChildren(b));
    }
  }

  /** A child of any other kind contributes nothing, and the points inside
      it are lost. */
  lemma OtherTagIgnored(a: seq<Node>, c: Node, b: seq<Node>)
    requires !IsContainer(NodeType(c.tag)) && !IsPointTag(NodeType(c.tag))
    ensures ParseChildren(a + [c] + b) == ParseChildren(a + b)
  {
    assert ParseRoute(c) == Ok(Ignored);
    SkipIgnored(c, b);
    assert a + [c] + b == a + ([c] + b);
    ParseChildrenAppend(a, [c] + b);
    ParseChildrenAppend(a, b);
  }

  /** A nested container is spliced into its parent's list: its children
      take its place among the parent's children, so a whole GPX tree
      yields the points of its leaves in document order. */
  lemma ContainerSpliced(a: seq<Node>, c: Node, b: seq<Node>)
    requires IsContainer(NodeType(c.tag))
    ensures ParseChildren(a + [c] + b) == ParseChildren(a + c.children + b)
  {
    assert a + [c] + b == a + ([c] + b);
    assert a + c.children + b == a + (c.children + b);
    ParseChildrenAppend(a, [c] + b);
    ParseChildrenAppend(a, c.children + b);
    ParseChildrenAppend(c.children, b);
    assert ([c] + b)[0] == c && ([c] + b)[1..] == b;
  }

  lemma SkipIgnored(c: Node, b: seq<Node>)
    requires ParseRoute(c) == Ok(Ignored)
    ensures ParseChildren([c] + b) == ParseChildren(b)
  {
    var cb := [c] + b;
    assert cb[0] == c && cb[1..] == b;
    if ParseChildren(b).Ok? {
      assert [] + ParseChildren(b).value == ParseChildren(b).value;
    }
  }

  /** No tag in the tree contains '}'. */
  predicate NoBraces(n: Node)
    decreases n, 1
  {
    '}' !in n.tag && AllNoBraces(n.children)
  }

  predicate AllNoBraces(cs: seq<Node>)
    decreases cs, 0
  {
    |cs| == 0 || (NoBraces(cs[0]) && AllNoBraces(cs[1..]))
  }

  /** The tree with every tag put in namespace `ns`, as a GPX 1.1 document
      declaring a default namespace is delivered: `{ns}tag`. */
  function WithNamespace(ns: string, n: Node): (m: Node)
    ensures m.tag == "{" + ns + "}" + n.tag
    ensures m.attrib == n.attrib && m.text == n.text
    decreases n, 1
  {
    Node("{" + ns + "}" + n.tag, n.attrib, n.text, AllWithNamespace(ns, n.children))
  }

  function AllWithNamespace(ns: string, cs: seq<Node>): (ms: seq<Node>)
    ensures |ms| == |cs|
    decreases cs, 0
  {
    if |cs| == 0 then [] else [WithNamespace(ns, cs[0])] + AllWithNamespace(ns, cs[1..])
  }

  lemma NamespacedType(ns: string, n: Node)
    requires '}' !in ns && '}' !in n.tag
    ensures NodeType(WithNamespace(ns, n).tag) == NodeType(n.tag)
  {
    assert "{" + ns + "}" + n.tag == ("{" + ns) + "}" + n.tag;
    NodeTypeAfterNamespace("{" + ns, n.tag);
  }

  lemma {:induction false} NamespacedFirstEle(ns: string, cs: seq<Node>)
    requires '}' !in ns && AllNoBraces(cs)
    ensures FirstEle(AllWithNamespace(ns, cs)) == FirstEle(cs)
    decreases |cs|
  {
    if |cs| > 0 {
      var ms := AllWithNamespace(ns, cs);
      assert ms[0] == WithNamespace(ns, cs[0]) && ms[1..] == AllWithNamespace(ns, cs[1..]);
      NamespacedType(ns, cs[0]);
      NamespacedFirstEle(ns, cs[1..]);
    }
  }

  /** Namespaces make no difference: a tree whose tags are all put in one
      namespace yields the same points, or the same error, as the bare
      tree. */
  lemma {:induction false} NamespaceIgnored(ns: string, n: Node)
    requires '}' !in ns && NoBraces(n)
    ensures ParseRoute(WithNamespace(ns, n)) == ParseRoute(n)
    decreases n, 1
  {
    var m := WithNamespace(ns, n);
    NamespacedType(ns, n);
    var t := NodeType(n.tag);
    if IsContainer(t) {
      NamespaceIgnoredAll(ns, n.children);
      assert ParseChildren(m.children) == ParseChildren(n.children);
    } else if IsPointTag(t) {
      NamespacedFirstEle(ns, n.children);
      assert ParsePoint(m) == ParsePoint(n);
    }
  }

  lemma {:induction false} NamespaceIgnoredAll(ns: string, cs: seq<Node>)
    requires '}' !in ns && AllNoBraces(cs)
    ensures ParseChildren(AllWithNamespace(ns, cs)) == ParseChildren(cs)
    decreases cs, 0
  {
    if |cs| > 0 {
      var ms := AllWithNamespace(ns, cs);
      assert ms[0] == WithNamespace(ns, cs[0]) && ms[1..] == AllWithNamespace(ns, cs[1..]);
      NamespaceIgnored(ns, cs[0]);
      NamespaceIgnoredAll(ns, cs[1..]);
    }
  }

  /** `pts = ParseRoute(root)` as the callers use it: a list is required;
      a point dict or `None` at the root makes the caller fail. */
  function RoutePoints(root: Node): (r: Result<seq<Point>, ParseError>)
    ensures !IsContainer(NodeType(root.tag)) ==> r.Err?
    ensures IsContainer(NodeType(root.tag)) ==> r == ParseChildren(root.children)
  {
    match ParseRoute(root)
    case Err(e) => Err(e)
    case Ok(Many(ps)) => Ok(ps)
    case Ok(_) => Err(NotARoute)
  }
}

=== FILE: tile.dfy ===
/** Decoding of a raw SRTM tile (the pure step of `LoadTile`,
    gpx_utils.py:151): the file holds 1201 rows of 1201 big-endian signed
    16-bit samples, northern row first; the decoded grid is flipped so that
    row 0 is the southern edge and column 0 the western edge. */
module Tile {
  import opened Results
  import opened Addressing

  type byte = b: int | 0 <= b < 256

  /** The sample marking "no data". */
  const VOID_ELE: int := -32768

  /** Bytes in a tile file: two per sample. */
  const TILE_BYTES: int := 2 * LINES_PER_CELL * LINES_PER_CELL

  type Grid = seq<seq<int>>

  predicate IsInt16(v: int) {
    -32768 <= v <= 32767
  }

  /** A decoded tile: 1201 rows of 1201 signed 16-bit samples. */
  predicate IsTile(g: Grid) {
    && |g| == LINES_PER_CELL
    && forall r :: 0 <= r < |g| ==>
         |g[r]| == LINES_PER_CELL && forall c :: 0 <= c < |g[r]| ==> IsInt16(g[r][c])
  }

  /** Why `np.fromstring(...).reshape(1201, 1201)` can reject a buffer. */
  datatype DecodeError =
    | OddLength(bytes: nat)          // not a whole number of int16 samples
    | ShapeMismatch(samples: nat)    // cannot be reshaped to 1201 x 1201

  /** A big-endian two's-complement 16-bit sample. */
  function Int16BE(hi: byte, lo: byte): (v: int)
    ensures IsInt16(v)
    ensures (v + 65536) % 65536 == hi * 256 + lo
  {
    var u := hi * 256 + lo;
    if u >= 32768 then u - 65536 else u
  }

  /** The `k`-th sample of a buffer, in file order. */
  function SampleAt(bytes: seq<byte>, k: nat): (v: int)
    requires 2 * k + 1 < |bytes|
    ensures IsInt16(v)
  {
    Int16BE(bytes[2 * k], bytes[2 * k + 1])
  }

  /** Reverses the order of the rows (`np.flipud`). */
  function FlipRows(g: Grid): (f: Grid)
    ensures |f| == |g|
    ensures forall r :: 0 <= r < |g| ==> f[r] == g[|g| - 1 - r]
  {
    seq(|g|, r requires 0 <= r < |g| => g[|g| - 1 - r])
  }

  lemma FlipInvolution(g: Grid)
    ensures FlipRows(FlipRows(g)) == g
  {
  }

  /** The buffer reshaped to 1201 x 1201, file row 0 first. */
  function FileGrid(bytes: seq<byte>): (g: Grid)
    requires |bytes| == TILE_BYTES
    ensures IsTile(g)
  {
    var g := seq(LINES_PER_CELL, r requires 0 <= r < LINES_PER_CELL =>
      seq(LINES_PER_CELL, c requires 0 <= c < LINES_PER_CELL =>
        SampleAt(bytes, r * LINES_PER_CELL + c)));
    assert forall r :: 0 <= r < |g| ==> |g[r]| == LINES_PER_CELL && forall c :: 0 <= c < |g[r]| ==>
      g[r][c] == SampleAt(bytes, r * LINES_PER_CELL + c);
    g
  }

  /** The reshape is in C order: the `k`-th sample of the file is found at
      row `k / 1201`, column `k % 1201`. */
  lemma FileGridOrder(bytes: seq<byte>, k: nat)
    requires |bytes| == TILE_BYTES && k < LINES_PER_CELL * LINES_PER_CELL
    ensures FileGrid(bytes)[k / LINES_PER_CELL][k % LINES_PER_CELL] == SampleAt(bytes, k)
  {
    var r := k / LINES_PER_CELL;
    var c := k % LINES_PER_CELL;
    assert k == r * LINES_PER_CELL + c;
  }

  /** Decodes a tile buffer. Exactly the buffers of 2*1201*1201 bytes
      decode; in the result, row `r` is file row `1200 - r`, so row 0 is the
      southern edge. */
  function Decode(bytes: seq<byte>): (res: Result<Grid, DecodeError>)
    ensures res.Ok? <==> |bytes| == TILE_BYTES
    ensures res.Ok? ==> IsTile(res.value)
    ensures res.Ok? ==> forall r, c :: 0 <= r < LINES_PER_CELL && 0 <= c < LINES_PER_CELL ==>
              res.value[r][c] == SampleAt(bytes, (LINES_PER_CELL - 1 - r) * LINES_PER_CELL + c)
    ensures |bytes| % 2 == 1 ==> res == Err(OddLength(|bytes|))
    ensures |bytes| % 2 == 0 && |bytes| != TILE_BYTES ==> res == Err(ShapeMismatch(|bytes| / 2))
  {
    if |bytes| % 2 == 1 then Err(OddLength(|bytes|))
    else if |bytes| != TILE_BYTES then Err(ShapeMismatch(|bytes| / 2))
    else Ok(FlipRows(FileGrid(bytes)))
  }

  /** The high and low byte of a sample in two's complement. */
  function HighByte(v: int): byte
    requires IsInt16(v)
  {
    ((v + 65536) % 65536) / 256
  }

  function LowByte(v: int): byte
    requires IsInt16(v)
  {
    ((v + 65536) % 65536) % 256
  }

  /** Writes a tile back into the file layout: northern row first, each
      sample as two big-endian bytes. The inverse of `Decode`. */
  function Encode(g: Grid): (bytes: seq<byte>)
    requires IsTile(g)
    ensures |bytes| == TILE_BYTES
  {
    seq(TILE_BYTES, i requires 0 <= i < TILE_BYTES =>
      var k := i / 2;
      var v := g[LINES_PER_CELL - 1 - k / LINES_PER_CELL][k % LINES_PER_CELL];
      if i % 2 == 0 then HighByte(v) else LowByte(v))
  }

  lemma Int16RoundTrip(v: int)
    requires IsInt16(v)
    ensures Int16BE(HighByte(v), LowByte(v)) == v
  {
  }

  lemma SplitIndex(r: int, c: int)
    requires 0 <= r < LINES_PER_CELL && 0 <= c < LINES_PER_CELL
    ensures (r * LINES_PER_CELL + c) / LINES_PER_CELL == r
    ensures (r * LINES_PER_CELL + c) % LINES_PER_CELL == c
  {
  }

  /** Each sample is found again at its place in the encoded buffer. */
  lemma EncodedSample(g: Grid, r: int, c: int)
    requires IsTile(g)
    requires 0 <= r < LINES_PER_CELL && 0 <= c < LINES_PER_CELL
    ensures SampleAt(Encode(g), (LINES_PER_CELL - 1 - r) * LINES_PER_CELL + c) == g[r][c]
  {
    var bytes := Encode(g);
    var k := (LINES_PER_CELL - 1 - r) * LINES_PER_CELL + c;
    SplitIndex(LINES_PER_CELL - 1 - r, c);
    assert (2 * k) / 2 == k && (2 * k + 1) / 2 == k;
    assert bytes[2 * k] == HighByte(g[r][c]);
    assert bytes[2 * k + 1] == LowByte(g[r][c]);
    Int16RoundTrip(g[r][c]);
  }

  /** Every tile survives encoding and decoding unchanged. */
  lemma DecodeEncode(g: Grid)
    requires IsTile(g)
    ensures Decode(Encode(g)) == Ok(g)
  {
    var d := Decode(Encode(g)).value;
    forall r | 0 <= r < LINES_PER_CELL
      ensures d[r] == g[r]
    {
      forall c | 0 <= c < LINES_PER_CELL
        ensures d[r][c] == g[r][c]
      {
        EncodedSample(g, r, c);
      }
    }
    assert |d| == |g|;
    assert d == g;
  }

  /** Every buffer that decodes is reproduced exactly by encoding. */
  lemma EncodeDecode(bytes: seq<byte>)
    requires |bytes| == TILE_BYTES
    ensures Decode(bytes).Ok? && Encode(Decode(bytes).value) == bytes
  {
    var g := Decode(bytes).value;
    var e := Encode(g);
    forall i | 0 <= i < TILE_BYTES
      ensures e[i] == bytes[i]
    {
      EncodedByte(bytes, g, i);
    }
  }

  /** Byte `i` of the re-encoded tile is byte `i` of the buffer. */
  lemma EncodedByte(bytes: seq<byte>, g: Grid, i: int)
    requires |bytes| == TILE_BYTES
    requires Decode(bytes) == Ok(g)
    requires 0 <= i < TILE_BYTES
    ensures Encode(g)[i] == bytes[i]
  {
    var k := i / 2;
    var row := k / LINES_PER_CELL;
    var col := k % LINES_PER_CELL;
    assert k == row * LINES_PER_CELL + col;
    var v := SampleAt(bytes, k);
    assert g[LINES_PER_CELL - 1 - row][col] == v;
    var hi: int := bytes[2 * k];
    var lo: int := bytes[2 * k + 1];
    assert (v + 65536) % 65536 == hi * 256 + lo;
    assert (hi * 256 + lo) / 256 == hi && (hi * 256 + lo) % 256 == lo;
  }
}
